=== FILE: README.md ===
# iNaturalist scripts: a Dafny model

The repository is a set of Python scripts built around a local data
directory, `inat_data/`. It holds one folder per species. Each folder
contains observation images `<id>.jpg` and metadata files
`<id>_metadata.json`. This project models the logic of four of the scripts:

- **`api.py`**: `download_inat_images` asks the iNaturalist observation API
  for pages `1..max_pages` of research-grade observations with photos. For
  each observation with photos it saves the first photo, at medium size, to
  `<out_dir>/<species>/<id>.jpg`, where the species folder is the taxon name
  with spaces turned into `_`. It counts the saves.
- **`cleanup_images.py`**: an image is *orphaned* when the folder has no
  `<id>_metadata.json` next to it. `preview_cleanup` lists the orphaned
  images. `clean_images_without_metadata` deletes them and reports per-folder
  and total counts. `main` runs the preview and asks for confirmation
  (`yes`/`y`, ignoring case and surrounding white space) before cleaning.
- **`simple_charts.py`**: `load_species_counts` counts the metadata files per
  species. `calculate_species_ranges` estimates a range per species as 111 km
  per degree of the wider of the latitude and longitude spans. `create_charts`
  plots the counts and the ranges of the counted species.
- **`map_app.py`**: `load_species_coordinates` reads the coordinates and the
  common name of one species. `calculate_centroid_and_max_span` computes the
  mean position and the furthest-apart pair of observations.

The data directory is a value (`DataTree.DataDir`). It is a sequence of
entries in `os.listdir` order. Each entry is either a species folder with its
file listing or something that is not a directory. A file's content is either
`Malformed` (the JSON does not parse) or the parsed metadata fields, each
optional. Deleting files yields a new tree. The observation API, the keyboard
reply and the distance function are parameters.

Modules, in dependency order:

- `Wrappers`: `Option` and `Result`.
- `Strings`: Python's `str.replace`, `startswith`/`endswith`, `strip`, ASCII
  `lower`, and POSIX `os.path.join`.
- `Numerals`: `str(int)`.
- `Stats`: `sum`, `min`, `max` and the mean.
- `Dicts`: Python's insertion-ordered `dict`.
- `DataTree`: the data directory and the species-folder naming.
- `SpeciesMap`: `map_app.py`.
- `Cleanup`: `cleanup_images.py`.
- `Charts`: `simple_charts.py`.
- `Download`: `api.py`.

When no usable record has a non-empty common name, `load_species_coordinates`
does not necessarily return `None`. The comment at `map_app.py:47` says the name comes
from the first file, but the loop overwrites the name for as long as it is
falsy. The result is therefore the first non-empty name, or else the value of
the *last* usable record, which may be `None` or `""`. It is `None` when the
listing has no usable record. The model follows the code.

## Model

| member | source | states |
|---|---|---|
| SpeciesMap.LoadSpeciesCoordinates | map_app.py:25-54 | loads, in listing order, exactly the tuples of the metadata files that parse, flag `has_coordinates` and carry a latitude, longitude and observation id; the common name is the first non-empty one among those records, otherwise the last such record's absent or empty value |
| SpeciesMap.IncludedMembers | map_app.py:34-52 | a coordinate tuple is loaded iff some usable metadata file yields it |
| SpeciesMap.IncludedSplit | map_app.py:34-45 | loading two parts of a listing gives the two results one after the other: nothing is dropped, duplicated or reordered |
| SpeciesMap.IncludedSkipsUnusable | map_app.py:35-52 | files that are not metadata, do not parse, lack the flag or miss a field contribute nothing |
| SpeciesMap.FirstCommonNameExtend | map_app.py:47-49 | once a non-empty common name is found, later records do not change it |
| SpeciesMap.CentroidAndMaxSpan | map_app.py:56-83 | no coordinates give no centroid, distance 0 and no points; otherwise the centroid is the mean latitude and longitude; the maximum distance is non-negative and bounds every pair; the endpoints are set iff some pair is further apart than 0, and then they are the first pair in scan order at the maximum distance |
| SpeciesMap.SpanIsDetermined | map_app.py:71-81 | the first maximal pair in scan order is unique, so the reported points are determined by the distances alone |
| Stats.Mean | map_app.py:67-68 | each centroid coordinate lies between the smallest and the largest value |
| Stats.MeanOfOne | map_app.py:67-68 | the centroid of one observation is that observation's position |
| Stats.SumBounds | map_app.py:67-68 | n times the minimum is at most the sum, which is at most n times the maximum |
| Stats.SumLowerBound | map_app.py:67-68 | the sum is at least n times the minimum |
| Stats.SumUpperBound | map_app.py:67-68 | the sum is at most n times the maximum |
| Stats.Extent | simple_charts.py:51-52 | `max - min` is non-negative and no two values differ by more |
| Stats.ExtentAttained | simple_charts.py:51-52 | some pair of values differs by exactly `max - min` |
| Stats.MinAttained | simple_charts.py:51-52 | the minimum is one of the values |
| Stats.MaxAttained | simple_charts.py:51-52 | the maximum is one of the values |
| DataTree.SpeciesFolderHasNoSpace | api.py:24-25 | a species folder name never contains a space |
| DataTree.SpeciesFolderKeepsSpacelessName | api.py:25 | a taxon name without spaces is used as the folder name unchanged |
| DataTree.UnknownSpeciesFolder | api.py:24-25 | an observation without a taxon name goes to `unknown_species` |
| DataTree.DisplayNameInvertsFolder | map_app.py:175 | turning `_` back into spaces recovers the taxon name iff the name contains no `_` |
| Strings.ReplaceAll | api.py:28 | replacing by a pattern of the same length keeps the length; text without the pattern is unchanged |
| Strings.RewriteLeavesNoSquare | api.py:28 | after replacing every `square` by `medium`, no `square` is left |
| Strings.ReplaceOneCharRoundTrip | simple_charts.py:18 | swapping one character for another and back restores the text iff the text did not already contain the second character |
| Strings.LowerIdempotent | cleanup_images.py:119 | lowering a lowered reply changes nothing |
| Strings.StripPadded | cleanup_images.py:119 | stripping removes exactly the surrounding white space |
| Strings.JoinPathShape | api.py:31-34 | a joined path ends with its last component and begins with the first component when the last one is relative |
| Numerals.Digits | api.py:34 | a natural number's decimal text is non-empty, all digits, without a leading zero |
| Numerals.DecimalRoundTrip | api.py:34 | reading back an id's decimal text gives the id |
| Numerals.DecimalInjective | api.py:34 | two ids have the same decimal text iff they are equal |
| Dicts.Put | simple_charts.py:18 | storing a key makes it map to the value and leaves every other key's value alone; a present key keeps its position, a new key goes last; keys stay distinct |
| Dicts.Items | simple_charts.py:69-70 | the items are the keys in insertion order, each with the value stored under it |
| Cleanup.MetadataPartner | cleanup_images.py:34-37 | the metadata file an image needs is a metadata name and never an image name |
| Cleanup.Survivors | cleanup_images.py:29-44 | an entry survives iff it is not an orphaned image |
| Cleanup.Clean | cleanup_images.py:3-59 | cleaning keeps every top-level entry and its name, changes only species folders, and never deletes more images than it processed |
| Cleanup.CleanRemovesExactlyOrphans | cleanup_images.py:29-44 | an entry of a species folder is removed iff it is an orphaned image; other files are never removed |
| Cleanup.SurvivingImages | cleanup_images.py:48 | the images kept in a folder are its images minus the deleted ones |
| Cleanup.NonImagesUntouched | cleanup_images.py:29 | files that are not `.jpg` keep their relative order |
| Cleanup.SurvivorsHaveNoOrphan | cleanup_images.py:40-44 | every image left in a folder has its metadata file next to it |
| Cleanup.NothingOrphaned | cleanup_images.py:40-46 | a folder without orphans is kept as it is, with nothing deleted |
| Cleanup.NoDeletionMeansNoOrphan | cleanup_images.py:56-59 | a folder where nothing was deleted had no orphaned image |
| Cleanup.CleanLeavesNoOrphan | cleanup_images.py:3-59 | after cleanup, no folder holds an orphaned image |
| Cleanup.CleanWithoutOrphans | cleanup_images.py:3-59 | a tree without orphans is unchanged, with zero deletions |
| Cleanup.CleanIsIdempotent | cleanup_images.py:3-59 | cleaning a cleaned tree changes nothing and deletes nothing |
| Cleanup.NoDeletionKeepsTree | cleanup_images.py:56-59 | a cleanup that deleted nothing left the tree as it was |
| Cleanup.SummariesAddUp | cleanup_images.py:13-48 | there is one summary per species folder, in listing order, with that folder's deleted count and its kept images |
| Cleanup.TotalsAddUp | cleanup_images.py:52-54 | the total processed is the number of images in all species folders, and processed minus deleted is the number of images left |
| Cleanup.OrphanPaths | cleanup_images.py:79-89 | a folder lists as many paths as it has orphaned images |
| Cleanup.PreviewCleanup | cleanup_images.py:61-101 | the preview sees as many images as the cleanup processes and lists as many paths as it deletes |
| Cleanup.ListedPathIsOrphan | cleanup_images.py:79-89 | every path a folder lists is the path of one of its orphaned images |
| Cleanup.OrphanIsListed | cleanup_images.py:79-89 | every orphaned image of a folder has its path listed |
| Cleanup.PreviewedIsRemoved | cleanup_images.py:61-101 | every path the preview lists belongs to a file that cleanup removes |
| Cleanup.RemovedIsPreviewed | cleanup_images.py:61-101 | every file that cleanup removes is listed by the preview |
| Cleanup.PreviewListsWhatCleanRemoves | cleanup_images.py:61-101 | a path is listed by the preview iff cleanup removes the file at that path |
| Cleanup.ConfirmedIgnoresPadding | cleanup_images.py:119-121 | a reply padded with white space confirms iff its core, lower-cased, is `yes` or `y` |
| Cleanup.CleanupUtility | cleanup_images.py:103-124 | nothing is cleaned when the preview is empty; otherwise the tree is cleaned iff the reply confirms, and left as it was otherwise |
| Cleanup.PartnerVisible | cleanup_images.py:40 | during the loop, a metadata file is visible to the existence check iff it was listed, since only images have been deleted |
| Cleanup.CleanFolderInPlace | cleanup_images.py:25-46 | deleting one by one against the live directory leaves exactly the files `Survivors` describes and counts the images and the deletions |
| Charts.SpeciesCounts | simple_charts.py:5-20 | the counts form an insertion-ordered dict with distinct keys, and every stored count is positive |
| Charts.CountsKeys | simple_charts.py:9-18 | a species is counted iff one of its folders holds a metadata file; entries that are not directories never count |
| Charts.CountsValue | simple_charts.py:15-18 | a species' count is that of the last folder shown under its name that holds a metadata file; a later same-named folder without one does not overwrite it |
| Charts.CollectAsWritten | simple_charts.py:35-47 | as written, at most as many longitudes as latitudes are gathered |
| Charts.FolderRangeAsWritten | simple_charts.py:50-55 | as written, a folder raises iff it gathered two latitudes and no longitude, has no range iff it gathered fewer than two latitudes, and otherwise has a non-negative range |
| Charts.SpeciesRangesAsWritten | simple_charts.py:22-57 | as written, a completed computation gives an insertion-ordered dict of non-negative ranges |
| Charts.AsWrittenRaisesOnlyOnFolder | simple_charts.py:22-57 | as written, the computation raises only when some folder gathered two latitudes and no longitude |
| Charts.AsWrittenRaisesOnMissingLongitudes | simple_charts.py:41-52 | any species folder holding just two records with a latitude and no longitude makes the range computation raise |
| Charts.AsWrittenRaisesOnFolder | simple_charts.py:50-52 | one folder that gathered two latitudes and no longitude makes the whole computation raise, whatever the other folders hold |
| Charts.AsWrittenAgreesWithoutHalfRecords | simple_charts.py:22-57 | when every flagged record with a latitude has a longitude, the code as written computes the corrected ranges |
| Charts.Collect | simple_charts.py:41-47 | the corrected gathering gathers as many longitudes as latitudes |
| Charts.CompleteRecordsMembers | simple_charts.py:36-44 | in the corrected gathering, the records that contribute are exactly the metadata files that flag coordinates and carry both of them |
| Charts.CollectPairs | simple_charts.py:35-47 | the corrected lists have one index per complete record, in listing order, holding that record's latitude and longitude |
| Charts.RangeKm | simple_charts.py:51-54 | the estimate is non-negative and at least 111 times every latitude or longitude span |
| Charts.RangeKmAttained | simple_charts.py:51-54 | the estimate is 111 times the span of some actual pair of latitudes or longitudes |
| Charts.FolderRange | simple_charts.py:50-55 | in the corrected gathering, a folder has a range iff it yielded at least two complete coordinates, and the range is the non-negative estimate of those coordinates |
| Charts.SpeciesRanges | simple_charts.py:22-57 | in the corrected gathering, the ranges form an insertion-ordered dict with distinct keys, and every range is non-negative |
| Charts.RangesStep | simple_charts.py:26-55 | in the corrected gathering, the last folder either sets its species' range to its own estimate or leaves the range alone |
| Charts.RangesLookup | simple_charts.py:26-55 | in the corrected gathering, a species has a range iff one of its folders yielded two complete coordinates; every range is non-negative |
| Charts.RangesValue | simple_charts.py:26-55 | in the corrected gathering, a species' range is the estimate of the last folder shown under its name that yielded two complete coordinates |
| Charts.RangeBarsInOrder | simple_charts.py:78-83 | the range bars follow the order of the count chart |
| Charts.RangeBarsMembers | simple_charts.py:78-83 | a species has a range bar iff it is counted and has a range |
| Charts.RangeBarsValues | simple_charts.py:78-83 | each range bar shows its own species' range |
| Charts.CreateCharts | simple_charts.py:59-83 | the count chart shows every counted species in insertion order with its count; the range chart shows, in that order, exactly the counted species that have a range, each with its range |
| Charts.ChartsOf | simple_charts.py:69-83 | the count bars are the count table in insertion order; the range bars are, in that order, exactly the counted species that have a range, each with its range |
| Charts.CreateChartsAsWritten | simple_charts.py:59-83 | as written, the figure fails iff the range computation raises; otherwise the count chart is the corrected one and each range bar carries the range as written |
| Charts.CreateChartsAgree | simple_charts.py:59-83 | without half records the figure as written is the corrected figure |
| Charts.AsWrittenRangesUnpairedFolder | simple_charts.py:43-55 | as written, a folder with one complete and one half record gets a range, which the corrected estimate does not give it |
| Download.SaveOf | api.py:27-28 | an observation is saved iff its photo list is present and non-empty |
| Download.SavesOf | api.py:38 | the number of saves is the number of observations with photos |
| Download.SavesOfConcat | api.py:12-23 | the saves of consecutive pages are the saves of each page in turn |
| Download.SavesComeFromObservations | api.py:23-36 | every save writes the first photo's medium URL of an observation with photos to `<out_dir>/<species>/<id>.jpg` |
| Download.ObservationsAreSaved | api.py:27-36 | every observation with photos is saved |
| Download.SavePage | api.py:23-38 | the loop over one page saves exactly what `SavesOf` describes |
| Download.DownloadImages | api.py:4-41 | pages `1..max_pages` are requested in order, none when `max_pages < 1`, each for research-grade observations with photos of the given taxon and page size; the saves are those of all pages' results in order, and the count is the number of observations with photos |
| Download.MediumUrlShape | api.py:28 | the saved URL contains no `square`, has the original's length, and is the original when it contains no `square` |
| Download.ImageFileNameShape | api.py:34 | the saved file is an image for the cleanup utility, its id is the observation id, and its metadata file is `<id>_metadata.json` |
| Download.ImageFileNameInjective | api.py:34 | two observations get the same file name iff they have the same id |
| Download.ImagePathShape | api.py:31-34 | the path ends with the file name and begins with the species folder under the output directory |

## Findings

| source | as written | input that shows it | evidently intended | confidence | as-written member | corrected member |
|---|---|---|---|---|---|---|
| simple_charts.py:43-52 | the latitude is appended before the longitude is read; the `KeyError` for a missing longitude skips only the rest of the record, so `lats` and `lons` drift apart, and `max(lons)` raises `ValueError` when `lats` has two entries and `lons` none | a species folder holding just two metadata files whose coordinates are `{"has_coordinates": true, "latitude": 10.0}` | a record contributes both coordinates or neither, and a species without two complete coordinates gets no range | not executed | Charts.AsWrittenRaisesOnMissingLongitudes | Charts.RangesLookup |

`Charts.SpeciesRangesAsWritten` models the code as written, with the
`ValueError` as an `Err`. `Charts.SpeciesRanges` is the corrected definition,
and `Charts.CreateCharts` uses it. `Charts.AsWrittenAgreesWithoutHalfRecords`
shows that the two agree whenever no record lacks a longitude, and
`Charts.CreateChartsAgree` lifts this to the figure. With only one half
record no exception is raised, but the lists drift apart, and when the folder
also has a complete record it is still given a range (`Charts.AsWrittenRangesUnpairedFolder`).

## Left out

- The body of `haversine_distance` (map_app.py:8-23) is trigonometry on floats. The distance is a parameter of `SpeciesMap.CentroidAndMaxSpan`, and nothing is assumed about it.
- Floating-point rounding: coordinates, means and ranges are exact reals.
- File system, JSON parsing, HTTP and `input()` are left out. The data directory is a given value in `os.listdir` order, and parsed JSON is a `Content` value. API responses come from the `fetch` parameter. The reply is a string parameter. Image bytes and `os.makedirs` are not modelled.
- `print` output is left out. The cleanup report keeps the numbers it prints as data.
- Streamlit, folium and matplotlib are not modelled. That covers `create_species_map`, the UI in `main` of map_app.py, and the drawing and saving in `create_charts`. Only the folder-to-display-name step (map_app.py:175) and the bar data are modelled.
- The module-level call at api.py:43 and the `__main__` blocks are not modelled.
- transformer.py is not part of this model.
- JSON values of the wrong type are not modelled, for example: `coordinates`, `taxon`, `image_metadata` or `taxonomy` that is `null` or not an object, a top-level value that is not an object, a taxon name or photo URL that is `null`, or a photo without `url`. The source raises an uncaught error on these. The model's fields have fixed types, so these inputs cannot be expressed.
- A metadata file that is not valid UTF-8 is not modelled: its `UnicodeDecodeError` escapes the `except (json.JSONDecodeError, KeyError)` at map_app.py:51 and simple_charts.py:46, while the model reads every unparsable file as `Malformed` and skips it.
- An observation without an `id` is not modelled, because `Download.Observation.id` is an `int`. The source raises on it only when the observation has photos (api.py:34), and skips it silently otherwise. An `id` that is `null` raises nothing: the photo is saved as `<out_dir>/<species>/None.jpg`. The model cannot express it either. A missing taxon or taxon name is modelled: it falls back to `unknown_species` (api.py:24-25).
- `Charts.CreateCharts`: it plots the corrected ranges, so on a tree with a half record it differs from the code as written. There, `create_charts` raises `ValueError` or plots a range computed from unequal latitude and longitude lists. `Charts.CreateChartsAsWritten` models that behaviour.
- `image_metadata.image_url` that is present but `null` is not distinguished from an absent one: both read as `''`.
- A `latitude`, `longitude` or `observation_id` that is present but `null` reads as absent in `DataTree.Coordinates` and `DataTree.Metadata`, so the model skips the record as it would on a `KeyError`. The source reads `None` without a `KeyError`. In map_app.py:41-45 the tuple is appended with `None` in it. A `null` id raises nothing later, and a `null` coordinate makes the later mean raise `TypeError`. In simple_charts.py:43-44, `None` is appended. The range step raises `TypeError` once the folder has gathered at least two latitudes (simple_charts.py:50-52); otherwise the species silently gets no range.
- Subdirectories inside a species folder are not modelled: every folder entry is a file.
- `Strings.Lower`: lowers ASCII letters only. The confirmation reply is compared with ASCII words, but a non-ASCII reply is lowered differently by Python.
- `Cleanup.PreviewCleanup`: a listed path is kept as its three parts (`Cleanup.FilePath`). `Cleanup.Render` joins them as `os.path.join` does. Comparing rendered strings would also equate different triples that join to the same text.
- `Cleanup.CleanFolderInPlace`: it requires distinct names in a folder listing, which `os.listdir` always gives.
- Two observations with the same species and id are saved to the same path. The second write replaces the first, but both are counted. The model records the writes, not the resulting files.

=== FILE: charts.dfy ===
/** `simple_charts.py`: per-species metadata counts, a rough range estimate
    per species, and the two bar series the figure plots. */
module Charts {
  import opened Wrappers
  import opened Stats
  import opened Dicts
  import opened DataTree

  // ---------------------------------------------------------------------
  // Observation counts
  // ---------------------------------------------------------------------

  /** `json_count`: how many entries of a listing are named `*_metadata.json`. */
  function MetadataCount(files: seq<FileEntry>): nat
    decreases |files|
  {
    if |files| == 0 then 0
    else MetadataCount(files[..|files| - 1]) + (if IsMetadataName(files[|files| - 1].name) then 1 else 0)
  }

  /** `load_species_counts`: display name to metadata count, for the species
      folders with at least one metadata file, in listing order. Two folders
      with the same display name share one key, holding the later count. */
  function SpeciesCounts(tree: DataDir): (d: Dict<nat>)
    ensures Valid(d)
    ensures forall key :: key in d.values ==> d.values[key] > 0
    decreases |tree|
  {
    if |tree| == 0 then Empty()
    else
      var d := SpeciesCounts(tree[..|tree| - 1]);
      var e := tree[|tree| - 1];
      if e.Folder? && MetadataCount(e.files) > 0 then Put(d, DisplayName(e.name), MetadataCount(e.files))
      else d
  }

  /** Entry `k` of the data directory is a species folder shown as `key`
      with at least one metadata file. */
  ghost predicate CountedAs(tree: DataDir, k: int, key: string) {
    0 <= k < |tree| && tree[k].Folder? && DisplayName(tree[k].name) == key && MetadataCount(tree[k].files) > 0
  }

  /** The last entry either sets `key` or leaves its count alone. */
  lemma CountsStep(tree: DataDir, key: string)
    requires |tree| > 0
    ensures Get(SpeciesCounts(tree), key)
         == if CountedAs(tree, |tree| - 1, key) then Some(MetadataCount(tree[|tree| - 1].files))
            else Get(SpeciesCounts(tree[..|tree| - 1]), key)
  {
  }

  /** A key is counted iff some species folder shown under it holds a
      metadata file; entries that are not directories never contribute. */
  lemma {:induction false} CountsKeys(tree: DataDir, key: string)
    ensures Get(SpeciesCounts(tree), key).Some? <==> exists k :: CountedAs(tree, k, key)
    decreases |tree|
  {
    if |tree| > 0 {
      var init := tree[..|tree| - 1];
      var n := |tree| - 1;
      CountsKeys(init, key);
      assert forall k :: 0 <= k < n ==> (CountedAs(init, k, key) <==> CountedAs(tree, k, key));
      CountsStep(tree, key);
      if !CountedAs(tree, n, key) {
        if Get(SpeciesCounts(tree), key).Some? {
          var k :| CountedAs(init, k, key);
          assert CountedAs(tree, k, key);
        }
      }
    }
  }

  /** Entry `k` is the last folder shown as `key` with a metadata file. */
  ghost predicate LastCountedAs(tree: DataDir, k: int, key: string) {
    CountedAs(tree, k, key) && forall k' :: k < k' < |tree| ==> !CountedAs(tree, k', key)
  }

  /** A counted key holds the count of the last folder shown under it. */
  lemma {:induction false} CountsValue(tree: DataDir, key: string, k: int)
    requires LastCountedAs(tree, k, key)
    ensures Get(SpeciesCounts(tree), key) == Some(MetadataCount(tree[k].files))
    decreases |tree|
  {
    var n := |tree| - 1;
    CountsStep(tree, key);
    if k < n {
      var init := tree[..n];
      assert forall k' :: k < k' < n ==> (CountedAs(init, k', key) <==> CountedAs(tree, k', key));
      assert LastCountedAs(init, k, key);
      CountsValue(init, key, k);
    }
  }

  // ---------------------------------------------------------------------
  // Range estimates
  // ---------------------------------------------------------------------

  /** The coordinate lists `calculate_species_ranges` gathers from a folder.
      A record flagging coordinates appends its latitude and then its
      longitude; a missing longitude raises `KeyError` after the latitude
      was already appended, and that append stays. */
  function CollectAsWritten(files: seq<FileEntry>): (r: (seq<real>, seq<real>))
    ensures |r.1| <= |r.0|
    decreases |files|
  {
    if |files| == 0 then ([], [])
    else
      var prev := CollectAsWritten(files[..|files| - 1]);
      var f := files[|files| - 1];
      if IsMetadataName(f.name) && f.content.Parsed? && FlagsCoordinates(f.content.meta)
         && f.content.meta.coordinates.value.latitude.Some? then
        var c := f.content.meta.coordinates.value;
        if c.longitude.Some? then (prev.0 + [c.latitude.value], prev.1 + [c.longitude.value])
        else (prev.0 + [c.latitude.value], prev.1)
      else prev
  }

  /** `max(lats)` or `max(lons)` raised `ValueError` on an empty list. */
  datatype RangeError = EmptyLongitudes

  /** The degree-span estimate: 111 km per degree of the wider span. */
  function RangeKm(lats: seq<real>, lons: seq<real>): (km: real)
    requires |lats| > 0 && |lons| > 0
    ensures km >= 0.0
    ensures forall i, j :: 0 <= i < |lats| && 0 <= j < |lats| ==> 111.0 * (lats[i] - lats[j]) <= km
    ensures forall i, j :: 0 <= i < |lons| && 0 <= j < |lons| ==> 111.0 * (lons[i] - lons[j]) <= km
  {
    var latRange := Extent(lats);
    var lonRange := Extent(lons);
    (if latRange >= lonRange then latRange else lonRange) * 111.0
  }

  /** The estimate is reached: it is 111 times the span of some pair of
      latitudes or of some pair of longitudes. */
  lemma RangeKmAttained(lats: seq<real>, lons: seq<real>)
    requires |lats| > 0 && |lons| > 0
    ensures || (exists i, j :: 0 <= i < |lats| && 0 <= j < |lats| && RangeKm(lats, lons) == 111.0 * (lats[i] - lats[j]))
            || (exists i, j :: 0 <= i < |lons| && 0 <= j < |lons| && RangeKm(lats, lons) == 111.0 * (lons[i] - lons[j]))
  {
    ExtentAttained(lats);
    ExtentAttained(lons);
    var i, j :| 0 <= i < |lats| && 0 <= j < |lats| && lats[i] - lats[j] == Extent(lats);
    var i', j' :| 0 <= i' < |lons| && 0 <= j' < |lons| && lons[i'] - lons[j'] == Extent(lons);
    if Extent(lats) >= Extent(lons) {
      assert RangeKm(lats, lons) == 111.0 * (lats[i] - lats[j]);
    } else {
      assert RangeKm(lats, lons) == 111.0 * (lons[i'] - lons[j']);
    }
  }

  /** One folder's entry as written: none below two latitudes, an error when
      there are latitudes but no longitudes, else the estimate. */
  function FolderRangeAsWritten(files: seq<FileEntry>): (r: Result<Option<real>, RangeError>)
    ensures r.Err? <==> |CollectAsWritten(files).0| >= 2 && |CollectAsWritten(files).1| == 0
    ensures r == Ok(None) <==> |CollectAsWritten(files).0| < 2
    ensures r.Ok? && r.value.Some? ==> r.value.value >= 0.0
  {
    var (lats, lons) := CollectAsWritten(files);
    if |lats| < 2 then Ok(None)
    else if |lons| == 0 then Err(EmptyLongitudes)
    else Ok(Some(RangeKm(lats, lons)))
  }

  /** `calculate_species_ranges` as written: the first folder that raises
      aborts the whole computation. */
  function SpeciesRangesAsWritten(tree: DataDir): (r: Result<Dict<real>, RangeError>)
    ensures r.Ok? ==> Valid(r.value)
    ensures r.Ok? ==> forall key :: key in r.value.values ==> r.value.values[key] >= 0.0
    decreases |tree|
  {
    if |tree| == 0 then Ok(Empty())
    else
      var prev := SpeciesRangesAsWritten(tree[..|tree| - 1]);
      var e := tree[|tree| - 1];
      if prev.Err? || e.NotADirectory? then prev
      else
        match FolderRangeAsWritten(e.files)
        case Err(err) => Err(err)
        case Ok(None) => prev
        case Ok(Some(km)) => Ok(Put(prev.value, DisplayName(e.name), km))
  }

  /** A metadata record that flags coordinates and has a latitude but no
      longitude: as written, it contributes its latitude alone. */
  predicate IsHalfRecord(f: FileEntry) {
    && IsMetadataName(f.name)
    && f.content.Parsed?
    && FlagsCoordinates(f.content.meta)
    && f.content.meta.coordinates.value.latitude.Some?
    && f.content.meta.coordinates.value.longitude.None?
  }

  /** A folder whose records gave two latitudes and no longitude makes the
      whole computation raise, whatever the other folders hold. */
  lemma {:induction false} AsWrittenRaisesOnFolder(tree: DataDir, k: int)
    requires 0 <= k < |tree| && tree[k].Folder?
    requires |CollectAsWritten(tree[k].files).0| >= 2 && |CollectAsWritten(tree[k].files).1| == 0
    ensures SpeciesRangesAsWritten(tree) == Err(EmptyLongitudes)
    decreases |tree|
  {
    var init := tree[..|tree| - 1];
    if k < |tree| - 1 {
      assert init[k] == tree[k];
      AsWrittenRaisesOnFolder(init, k);
    } else if SpeciesRangesAsWritten(init).Ok? {
      assert FolderRangeAsWritten(tree[k].files) == Err(EmptyLongitudes);
    } else {
      assert SpeciesRangesAsWritten(init).error.EmptyLongitudes?;
    }
  }

  /** Entry `k` is a folder whose records gave, as written, two latitudes
      and no longitude. */
  ghost predicate RaisesAt(tree: DataDir, k: int) {
    && 0 <= k < |tree| && tree[k].Folder?
    && |CollectAsWritten(tree[k].files).0| >= 2 && |CollectAsWritten(tree[k].files).1| == 0
  }

  /** The computation as written raises only because of such a folder. */
  lemma {:induction false} AsWrittenRaisesOnlyOnFolder(tree: DataDir)
    requires SpeciesRangesAsWritten(tree).Err?
    ensures exists k :: RaisesAt(tree, k)
    decreases |tree|
  {
    var init := tree[..|tree| - 1];
    if SpeciesRangesAsWritten(init).Err? {
      AsWrittenRaisesOnlyOnFolder(init);
      var k :| RaisesAt(init, k);
      assert init[k] == tree[k];
      assert RaisesAt(tree, k);
    } else {
      assert RaisesAt(tree, |tree| - 1);
    }
  }

  /** Two half records in one folder are enough: the computation as written
      raises instead of skipping them. */
  lemma AsWrittenRaisesOnMissingLongitudes(tree: DataDir, k: int, a: FileEntry, b: FileEntry)
    requires 0 <= k < |tree| && tree[k] == Folder(tree[k].name, [a, b])
    requires IsHalfRecord(a) && IsHalfRecord(b)
    ensures SpeciesRangesAsWritten(tree) == Err(EmptyLongitudes)
  {
    var files := [a, b];
    var lat := a.content.meta.coordinates.value.latitude.value;
    assert files[..1] == [a] && [a][..0] == [];
    assert CollectAsWritten([a]) == (CollectAsWritten([]).0 + [lat], CollectAsWritten([]).1);
    assert CollectAsWritten(files).1 == [];
    AsWrittenRaisesOnFolder(tree, k);
  }

  /** The coordinate lists with the evident intent of the `try` block: a
      record contributes both coordinates or neither. */
  function Collect(files: seq<FileEntry>): (r: (seq<real>, seq<real>))
    ensures |r.0| == |r.1|
    decreases |files|
  {
    if |files| == 0 then ([], [])
    else
      var prev := Collect(files[..|files| - 1]);
      var f := files[|files| - 1];
      if IsCompleteRecord(f) then
        var c := f.content.meta.coordinates.value;
        (prev.0 + [c.latitude.value], prev.1 + [c.longitude.value])
      else prev
  }

  /** A metadata record that flags coordinates and has both of them. */
  predicate IsCompleteRecord(f: FileEntry) {
    && IsMetadataName(f.name)
    && f.content.Parsed?
    && FlagsCoordinates(f.content.meta)
    && f.content.meta.coordinates.value.latitude.Some?
    && f.content.meta.coordinates.value.longitude.Some?
  }

  /** The complete records of a listing, in listing order. */
  ghost function CompleteRecords(files: seq<FileEntry>): (cs: seq<FileEntry>)
    decreases |files|
  {
    if |files| == 0 then []
    else CompleteRecords(files[..|files| - 1]) + (if IsCompleteRecord(files[|files| - 1]) then [files[|files| - 1]] else [])
  }

  /** The complete records are exactly the listed entries that are complete. */
  lemma {:induction false} CompleteRecordsMembers(files: seq<FileEntry>, f: FileEntry)
    ensures f in CompleteRecords(files) <==> f in files && IsCompleteRecord(f)
    decreases |files|
  {
    if |files| > 0 {
      var init := files[..|files| - 1];
      CompleteRecordsMembers(init, f);
      assert files == init + [files[|files| - 1]];
    }
  }

  /** The corrected lists hold, at each index, the latitude and the longitude
      of one and the same complete record, one index per complete record in
      listing order. */
  lemma {:induction false} CollectPairs(files: seq<FileEntry>)
    ensures |Collect(files).0| == |CompleteRecords(files)|
    ensures forall i :: 0 <= i < |CompleteRecords(files)| ==>
              && IsCompleteRecord(CompleteRecords(files)[i])
              && Collect(files).0[i] == CompleteRecords(files)[i].content.meta.coordinates.value.latitude.value
              && Collect(files).1[i] == CompleteRecords(files)[i].content.meta.coordinates.value.longitude.value
    decreases |files|
  {
    if |files| > 0 {
      CollectPairs(files[..|files| - 1]);
    }
  }

  /** One folder's range estimate, present once two complete coordinates
      were read, and then the estimate of those coordinates. */
  function FolderRange(files: seq<FileEntry>): (r: Option<real>)
    ensures r.Some? <==> |Collect(files).0| >= 2
    ensures r.Some? ==> r.value >= 0.0
    ensures r.Some? ==> r.value == RangeKm(Collect(files).0, Collect(files).1)
  {
    var (lats, lons) := Collect(files);
    if |lats| < 2 then None else Some(RangeKm(lats, lons))
  }

  /** `calculate_species_ranges` with complete records only; it never raises. */
  function SpeciesRanges(tree: DataDir): (d: Dict<real>)
    ensures Valid(d)
    ensures forall key :: key in d.values ==> d.values[key] >= 0.0
    decreases |tree|
  {
    if |tree| == 0 then Empty()
    else
      var d := SpeciesRanges(tree[..|tree| - 1]);
      var e := tree[|tree| - 1];
      if e.Folder? && FolderRange(e.files).Some? then Put(d, DisplayName(e.name), FolderRange(e.files).value)
      else d
  }

  /** Every record that flags coordinates and has a latitude also has a longitude. */
  ghost predicate NoHalfRecords(files: seq<FileEntry>) {
    forall i :: 0 <= i < |files| ==> !IsHalfRecord(files[i])
  }

  lemma {:induction false} CollectAgrees(files: seq<FileEntry>)
    requires NoHalfRecords(files)
    ensures CollectAsWritten(files) == Collect(files)
    decreases |files|
  {
    if |files| > 0 {
      CollectAgrees(files[..|files| - 1]);
    }
  }

  /** Without half records the code as written computes the intended ranges. */
  lemma {:induction false} AsWrittenAgreesWithoutHalfRecords(tree: DataDir)
    requires forall k :: 0 <= k < |tree| && tree[k].Folder? ==> NoHalfRecords(tree[k].files)
    ensures SpeciesRangesAsWritten(tree) == Ok(SpeciesRanges(tree))
    decreases |tree|
  {
    if |tree| > 0 {
      AsWrittenAgreesWithoutHalfRecords(tree[..|tree| - 1]);
      var e := tree[|tree| - 1];
      if e.Folder? {
        CollectAgrees(e.files);
      }
    }
  }

  /** Entry `k` is a species folder shown as `key` with two complete coordinates. */
  ghost predicate RangedAs(tree: DataDir, k: int, key: string) {
    0 <= k < |tree| && tree[k].Folder? && DisplayName(tree[k].name) == key && |Collect(tree[k].files).0| >= 2
  }

  /** A species has a range iff one of its folders yielded two coordinates,
      and every range is non-negative. */
  lemma {:induction false} RangesLookup(tree: DataDir, key: string)
    ensures Get(SpeciesRanges(tree), key).Some? <==> exists k :: RangedAs(tree, k, key)
    ensures Get(SpeciesRanges(tree), key).Some? ==> Get(SpeciesRanges(tree), key).value >= 0.0
    decreases |tree|
  {
    if |tree| > 0 {
      var init := tree[..|tree| - 1];
      var n := |tree| - 1;
      RangesLookup(init, key);
      assert forall k :: 0 <= k < n ==> (RangedAs(init, k, key) <==> RangedAs(tree, k, key));
      if RangedAs(tree, n, key) {
        assert Get(SpeciesRanges(tree), key) == FolderRange(tree[n].files);
      } else {
        assert Get(SpeciesRanges(tree), key) == Get(SpeciesRanges(init), key);
        if Get(SpeciesRanges(tree), key).Some? {
          var k :| RangedAs(init, k, key);
          assert RangedAs(tree, k, key);
        }
      }
    }
  }

  /** The last entry either sets `key` to its folder's range or leaves it alone. */
  lemma RangesStep(tree: DataDir, key: string)
    requires |tree| > 0
    ensures Get(SpeciesRanges(tree), key)
         == if RangedAs(tree, |tree| - 1, key) then FolderRange(tree[|tree| - 1].files)
            else Get(SpeciesRanges(tree[..|tree| - 1]), key)
  {
  }

  /** Entry `k` is the last folder shown as `key` with two complete coordinates. */
  ghost predicate LastRangedAs(tree: DataDir, k: int, key: string) {
    RangedAs(tree, k, key) && forall k' :: k < k' < |tree| ==> !RangedAs(tree, k', key)
  }

  /** A species' range is that of the last folder shown under its name. */
  lemma {:induction false} RangesValue(tree: DataDir, key: string, k: int)
    requires LastRangedAs(tree, k, key)
    ensures Get(SpeciesRanges(tree), key) == FolderRange(tree[k].files)
    decreases |tree|
  {
    var n := |tree| - 1;
    if k < n {
      var init := tree[..n];
      assert forall k' :: k < k' < n ==> (RangedAs(init, k', key) <==> RangedAs(tree, k', key));
      assert LastRangedAs(init, k, key);
      RangesValue(init, key, k);
    }
    RangesStep(tree, key);
  }

  // ---------------------------------------------------------------------
  // The figure
  // ---------------------------------------------------------------------

  /** `xs` can be obtained from `ys` by deleting elements. */
  predicate IsSubsequence(xs: seq<string>, ys: seq<string>)
    decreases |ys|
  {
    if |xs| == 0 then true
    else if |ys| == 0 then false
    else if xs[0] == ys[0] then IsSubsequence(xs[1..], ys[1..])
    else IsSubsequence(xs, ys[1..])
  }

  /** The second chart's bars: for each counted species, in order, its range
      if it has one. */
  function RangeBars(keys: seq<string>, ranges: Dict<real>): (bars: seq<(string, real)>)
    decreases |keys|
  {
    if |keys| == 0 then []
    else
      var r := Get(ranges, keys[0]);
      (if r.Some? then [(keys[0], r.value)] else []) + RangeBars(keys[1..], ranges)
  }

  function BarNames(bars: seq<(string, real)>): seq<string> {
    seq(|bars|, i requires 0 <= i < |bars| => bars[i].0)
  }

  lemma RangeBarsCons(keys: seq<string>, ranges: Dict<real>)
    requires |keys| > 0
    ensures BarNames(RangeBars(keys, ranges))
         == (if Get(ranges, keys[0]).Some? then [keys[0]] else []) + BarNames(RangeBars(keys[1..], ranges))
  {
  }

  /** The range bars keep the order of the first chart's species. */
  lemma {:induction false} RangeBarsInOrder(keys: seq<string>, ranges: Dict<real>)
    ensures IsSubsequence(BarNames(RangeBars(keys, ranges)), keys)
    decreases |keys|
  {
    if |keys| > 0 {
      RangeBarsInOrder(keys[1..], ranges);
      RangeBarsCons(keys, ranges);
      var rest := BarNames(RangeBars(keys[1..], ranges));
      if Get(ranges, keys[0]).Some? {
        assert ([keys[0]] + rest)[1..] == rest;
      } else {
        assert BarNames(RangeBars(keys, ranges)) == rest;
        SubsequenceDropHead(rest, keys);
      }
    }
  }

  /** A species has a range bar iff it is counted and has a range. */
  lemma {:induction false} RangeBarsMembers(keys: seq<string>, ranges: Dict<real>, s: string)
    ensures s in BarNames(RangeBars(keys, ranges)) <==> s in keys && Get(ranges, s).Some?
    decreases |keys|
  {
    if |keys| > 0 {
      RangeBarsMembers(keys[1..], ranges, s);
      RangeBarsCons(keys, ranges);
      assert keys == [keys[0]] + keys[1..];
    }
  }

  /** Each bar carries its own species' range. */
  lemma {:induction false} RangeBarsValues(keys: seq<string>, ranges: Dict<real>)
    ensures forall b :: b in RangeBars(keys, ranges) ==> Get(ranges, b.0) == Some(b.1)
    decreases |keys|
  {
    if |keys| > 0 {
      RangeBarsValues(keys[1..], ranges);
    }
  }

  /** Prepending to the longer sequence keeps a subsequence a subsequence. */
  lemma SubsequenceDropHead(xs: seq<string>, ys: seq<string>)
    requires |ys| > 0 && IsSubsequence(xs, ys[1..])
    ensures IsSubsequence(xs, ys)
    decreases |xs| + |ys|
  {
    if |xs| > 0 && xs[0] == ys[0] {
      SubsequenceTail(xs, ys[1..]);
    }
  }

  /** Dropping the first element keeps a subsequence a subsequence. */
  lemma SubsequenceTail(xs: seq<string>, ys: seq<string>)
    requires |xs| > 0 && IsSubsequence(xs, ys)
    ensures IsSubsequence(xs[1..], ys)
    decreases |xs| + |ys|
  {
    if xs[0] == ys[0] {
      SubsequenceDropHead(xs[1..], ys);
    } else {
      SubsequenceTail(xs, ys[1..]);
      SubsequenceDropHead(xs[1..], ys);
    }
  }

  /** The data of the two charts. */
  datatype Figure = Figure(countBars: seq<(string, nat)>, rangeBars: seq<(string, real)>)

  /** The two bar series `create_charts` draws from a count table and a
      range table. */
  function ChartsOf(counts: Dict<nat>, ranges: Dict<real>): (fig: Figure)
    requires Valid(counts)
    ensures |fig.countBars| == |counts.keys|
    ensures forall i :: 0 <= i < |fig.countBars| ==>
              && fig.countBars[i].0 == counts.keys[i]
              && Get(counts, fig.countBars[i].0) == Some(fig.countBars[i].1)
    ensures IsSubsequence(BarNames(fig.rangeBars), counts.keys)
    ensures forall b :: b in fig.rangeBars ==> Get(ranges, b.0) == Some(b.1)
    ensures forall s :: s in BarNames(fig.rangeBars) <==> Get(counts, s).Some? && Get(ranges, s).Some?
  {
    RangeBarsInOrder(counts.keys, ranges);
    RangeBarsValues(counts.keys, ranges);
    forall s: string
      ensures s in BarNames(RangeBars(counts.keys, ranges)) <==> s in counts.keys && Get(ranges, s).Some?
    {
      RangeBarsMembers(counts.keys, ranges, s);
    }
    Figure(Items(counts), RangeBars(counts.keys, ranges))
  }

  /** `create_charts`, without the drawing, on the corrected ranges. */
  function CreateCharts(tree: DataDir): (fig: Figure)
    ensures |fig.countBars| == |SpeciesCounts(tree).keys|
    ensures forall i :: 0 <= i < |fig.countBars| ==>
              && fig.countBars[i].0 == SpeciesCounts(tree).keys[i]
              && Get(SpeciesCounts(tree), fig.countBars[i].0) == Some(fig.countBars[i].1)
    ensures IsSubsequence(BarNames(fig.rangeBars), SpeciesCounts(tree).keys)
    ensures forall b :: b in fig.rangeBars ==> Get(SpeciesRanges(tree), b.0) == Some(b.1)
    ensures forall s :: s in BarNames(fig.rangeBars) <==>
              Get(SpeciesCounts(tree), s).Some? && Get(SpeciesRanges(tree), s).Some?
  {
    ChartsOf(SpeciesCounts(tree), SpeciesRanges(tree))
  }

  /** `create_charts` as written: the `ValueError` of the range computation
      escapes, and otherwise the figure plots the ranges as written. */
  function CreateChartsAsWritten(tree: DataDir): (r: Result<Figure, RangeError>)
    ensures r.Err? <==> SpeciesRangesAsWritten(tree).Err?
    ensures r.Ok? ==> r.value.countBars == CreateCharts(tree).countBars
    ensures r.Ok? ==> forall b :: b in r.value.rangeBars ==> Get(SpeciesRangesAsWritten(tree).value, b.0) == Some(b.1)
    ensures r.Ok? ==> forall s :: s in BarNames(r.value.rangeBars) <==>
              Get(SpeciesCounts(tree), s).Some? && Get(SpeciesRangesAsWritten(tree).value, s).Some?
  {
    match SpeciesRangesAsWritten(tree)
    case Err(e) => Err(e)
    case Ok(ranges) => Ok(ChartsOf(SpeciesCounts(tree), ranges))
  }

  /** Without half records the figure as written is the corrected figure. */
  lemma CreateChartsAgree(tree: DataDir)
    requires forall k :: 0 <= k < |tree| && tree[k].Folder? ==> NoHalfRecords(tree[k].files)
    ensures CreateChartsAsWritten(tree) == Ok(CreateCharts(tree))
  {
    AsWrittenAgreesWithoutHalfRecords(tree);
  }

  /** A folder with one complete record and one half record: as written it
      is given a range from two latitudes and one longitude, while the
      corrected estimate gives it none. */
  lemma AsWrittenRangesUnpairedFolder(a: FileEntry, b: FileEntry)
    requires IsCompleteRecord(a) && IsHalfRecord(b)
    ensures FolderRangeAsWritten([a, b]).Ok? && FolderRangeAsWritten([a, b]).value.Some?
    ensures FolderRange([a, b]).None?
  {
    var lat := a.content.meta.coordinates.value.latitude.value;
    var lon := a.content.meta.coordinates.value.longitude.value;
    assert [a, b][..1] == [a] && [a][..0] == [];
    assert CollectAsWritten([a]) == (CollectAsWritten([]).0 + [lat], CollectAsWritten([]).1 + [lon]);
    assert Collect([a]) == (Collect([]).0 + [lat], Collect([]).1 + [lon]);
    assert |CollectAsWritten([a, b]).0| == 2;
  }
}

=== FILE: cleanup.dfy ===
/** `cleanup_images.py`: deleting every `.jpg` whose `<id>_metadata.json` is
    not in the same species folder, the dry-run preview of the same
    deletions, and the confirmation step in between. */
module Cleanup {
  import opened Strings
  import opened DataTree

  /** The observation id an image name carries: the name without `.jpg`. */
  function ImageId(name: string): string
    requires IsImageName(name)
  {
    name[..|name| - 4]
  }

  /** The metadata file an image needs. It is never an image itself. */
  function MetadataPartner(name: string): (p: string)
    requires IsImageName(name)
    ensures IsMetadataName(p) && !IsImageName(p)
  {
    var p := ImageId(name) + MetadataSuffix;
    assert p[|p| - |MetadataSuffix|..] == MetadataSuffix;
    assert p[|p| - 1] == 'n';
    p
  }

  /** The names a folder listing holds (what `os.path.exists` consults). */
  function Names(files: seq<FileEntry>): set<string> {
    set f | f in files :: f.name
  }

  /** An image whose metadata partner is not among `names`. */
  predicate Orphan(name: string, names: set<string>) {
    IsImageName(name) && MetadataPartner(name) !in names
  }

  /** The entries that survive cleanup, in listing order. */
  function Survivors(files: seq<FileEntry>, names: set<string>): (kept: seq<FileEntry>)
    ensures |kept| <= |files|
    ensures forall f :: f in kept <==> f in files && !Orphan(f.name, names)
    decreases |files|
  {
    if |files| == 0 then []
    else
      var f := files[|files| - 1];
      var prev := Survivors(files[..|files| - 1], names);
      assert files == files[..|files| - 1] + [f];
      if Orphan(f.name, names) then prev else prev + [f]
  }

  /** How many `.jpg` entries a listing holds. */
  function CountImages(files: seq<FileEntry>): nat
    decreases |files|
  {
    if |files| == 0 then 0
    else CountImages(files[..|files| - 1]) + (if IsImageName(files[|files| - 1].name) then 1 else 0)
  }

  /** How many entries of a listing are orphaned images. */
  function CountOrphans(files: seq<FileEntry>, names: set<string>): (n: nat)
    ensures n <= CountImages(files)
    decreases |files|
  {
    if |files| == 0 then 0
    else CountOrphans(files[..|files| - 1], names) + (if Orphan(files[|files| - 1].name, names) then 1 else 0)
  }

  /** A data-directory entry after cleanup. Only species folders change. */
  function CleanEntry(e: TopEntry): (e': TopEntry)
    ensures e'.name == e.name && e'.Folder? == e.Folder?
    ensures e.NotADirectory? ==> e' == e
  {
    match e
    case NotADirectory(_) => e
    case Folder(name, files) => Folder(name, Survivors(files, Names(files)))
  }

  /** The per-folder summary line: how many images were deleted and kept. */
  datatype FolderSummary = FolderSummary(folder: string, deleted: nat, kept: nat)

  /** The tree after cleanup, one summary per species folder, and the totals. */
  datatype Report = Report(after: DataDir, summaries: seq<FolderSummary>, totalImages: nat, deleted: nat)

  /** `clean_images_without_metadata`. */
  function Clean(tree: DataDir): (r: Report)
    ensures |r.after| == |tree|
    ensures forall k :: 0 <= k < |tree| ==> r.after[k] == CleanEntry(tree[k])
    ensures r.deleted <= r.totalImages
    decreases |tree|
  {
    if |tree| == 0 then Report([], [], 0, 0)
    else
      var prev := Clean(tree[..|tree| - 1]);
      var e := tree[|tree| - 1];
      match e
      case NotADirectory(_) => Report(prev.after + [e], prev.summaries, prev.totalImages, prev.deleted)
      case Folder(name, files) =>
        var images := CountImages(files);
        var deleted := CountOrphans(files, Names(files));
        Report(prev.after + [CleanEntry(e)],
               prev.summaries + [FolderSummary(name, deleted, images - deleted)],
               prev.totalImages + images, prev.deleted + deleted)
  }

  /** The number of images in all species folders. */
  function TotalImages(tree: DataDir): nat
    decreases |tree|
  {
    if |tree| == 0 then 0
    else
      var e := tree[|tree| - 1];
      TotalImages(tree[..|tree| - 1]) + (if e.Folder? then CountImages(e.files) else 0)
  }

  // ---------------------------------------------------------------------
  // Properties of one folder
  // ---------------------------------------------------------------------

  /** The images left after cleanup are the images minus the deleted ones. */
  lemma {:induction false} SurvivingImages(files: seq<FileEntry>, names: set<string>)
    ensures CountImages(Survivors(files, names)) == CountImages(files) - CountOrphans(files, names)
    decreases |files|
  {
    if |files| > 0 {
      var f := files[|files| - 1];
      var prev := Survivors(files[..|files| - 1], names);
      SurvivingImages(files[..|files| - 1], names);
      if !Orphan(f.name, names) {
        assert (prev + [f])[..|prev|] == prev;
      }
    }
  }

  /** Entries that are not images keep their relative order. */
  function NonImages(files: seq<FileEntry>): seq<FileEntry>
    decreases |files|
  {
    if |files| == 0 then []
    else
      var f := files[|files| - 1];
      NonImages(files[..|files| - 1]) + (if IsImageName(f.name) then [] else [f])
  }

  /** Cleanup never touches an entry that is not a `.jpg`, metadata
      included, and keeps such entries in their order. */
  lemma {:induction false} NonImagesUntouched(files: seq<FileEntry>, names: set<string>)
    ensures NonImages(Survivors(files, names)) == NonImages(files)
    decreases |files|
  {
    if |files| > 0 {
      var f := files[|files| - 1];
      var prev := Survivors(files[..|files| - 1], names);
      NonImagesUntouched(files[..|files| - 1], names);
      if Orphan(f.name, names) {
        assert Survivors(files, names) == prev;
        assert NonImages(files) == NonImages(files[..|files| - 1]);
      } else {
        assert Survivors(files, names) == prev + [f];
        assert (prev + [f])[..|prev|] == prev;
        assert NonImages(prev + [f]) == NonImages(prev) + (if IsImageName(f.name) then [] else [f]);
      }
    }
  }

  /** Every image that survives has its metadata partner next to it. */
  lemma SurvivorsHaveNoOrphan(files: seq<FileEntry>)
    ensures forall f :: f in Survivors(files, Names(files)) ==> !Orphan(f.name, Names(Survivors(files, Names(files))))
  {
    var names := Names(files);
    var kept := Survivors(files, names);
    forall f | f in kept
      ensures !Orphan(f.name, Names(kept))
    {
      if IsImageName(f.name) {
        var p := MetadataPartner(f.name);
        assert p in names;
        var g :| g in files && g.name == p;
        assert !IsImageName(g.name);
        assert g in kept;
      }
    }
  }

  /** With nothing orphaned, cleanup keeps the listing and deletes nothing. */
  lemma {:induction false} NothingOrphaned(files: seq<FileEntry>, names: set<string>)
    requires forall f :: f in files ==> !Orphan(f.name, names)
    ensures Survivors(files, names) == files
    ensures CountOrphans(files, names) == 0
    decreases |files|
  {
    if |files| > 0 {
      NothingOrphaned(files[..|files| - 1], names);
      assert files[..|files| - 1] + [files[|files| - 1]] == files;
    }
  }

  /** When nothing is deleted, nothing was orphaned. */
  lemma {:induction false} NoDeletionMeansNoOrphan(files: seq<FileEntry>, names: set<string>)
    requires CountOrphans(files, names) == 0
    ensures forall f :: f in files ==> !Orphan(f.name, names)
    decreases |files|
  {
    if |files| > 0 {
      NoDeletionMeansNoOrphan(files[..|files| - 1], names);
      assert forall f :: f in files ==> f in files[..|files| - 1] || f == files[|files| - 1];
    }
  }

  // ---------------------------------------------------------------------
  // Properties of the whole tree
  // ---------------------------------------------------------------------

  /** Cleanup removes an entry exactly when it is an orphaned image; entries
      of other kinds, and non-directory entries of the data directory, stay. */
  lemma CleanRemovesExactlyOrphans(tree: DataDir, k: int, f: FileEntry)
    requires 0 <= k < |tree| && tree[k].Folder? && f in tree[k].files
    ensures f !in Clean(tree).after[k].files <==> Orphan(f.name, Names(tree[k].files))
    ensures !IsImageName(f.name) ==> f in Clean(tree).after[k].files
  {
  }

  /** After cleanup, every image in every folder has its metadata partner. */
  lemma CleanLeavesNoOrphan(tree: DataDir)
    ensures var after := Clean(tree).after;
      forall k, f :: 0 <= k < |after| && after[k].Folder? && f in after[k].files ==>
        !Orphan(f.name, Names(after[k].files))
  {
    var after := Clean(tree).after;
    forall k | 0 <= k < |after| && after[k].Folder?
      ensures forall f :: f in after[k].files ==> !Orphan(f.name, Names(after[k].files))
    {
      SurvivorsHaveNoOrphan(tree[k].files);
    }
  }

  /** A tree without orphans is left as it is, with nothing deleted. */
  lemma {:induction false} CleanWithoutOrphans(tree: DataDir)
    requires forall k, f :: 0 <= k < |tree| && tree[k].Folder? && f in tree[k].files ==>
               !Orphan(f.name, Names(tree[k].files))
    ensures Clean(tree).after == tree
    ensures Clean(tree).deleted == 0
    decreases |tree|
  {
    if |tree| > 0 {
      var init := tree[..|tree| - 1];
      assert forall k :: 0 <= k < |init| ==> init[k] == tree[k];
      CleanWithoutOrphans(init);
      var e := tree[|tree| - 1];
      if e.Folder? {
        NothingOrphaned(e.files, Names(e.files));
      }
      assert init + [e] == tree;
    }
  }

  /** Cleaning twice is cleaning once: the second run deletes nothing. */
  lemma CleanIsIdempotent(tree: DataDir)
    ensures Clean(Clean(tree).after).after == Clean(tree).after
    ensures Clean(Clean(tree).after).deleted == 0
  {
    CleanLeavesNoOrphan(tree);
    CleanWithoutOrphans(Clean(tree).after);
  }

  /** A cleanup that deletes nothing leaves the tree as it was. */
  lemma {:induction false} NoDeletionKeepsTree(tree: DataDir)
    requires Clean(tree).deleted == 0
    ensures Clean(tree).after == tree
    decreases |tree|
  {
    if |tree| > 0 {
      var init := tree[..|tree| - 1];
      NoDeletionKeepsTree(init);
      var e := tree[|tree| - 1];
      if e.Folder? {
        NoDeletionMeansNoOrphan(e.files, Names(e.files));
        NothingOrphaned(e.files, Names(e.files));
      }
      assert init + [e] == tree;
    }
  }

  /** Summary line `s` describes species folder `k` before and after cleanup. */
  ghost predicate Summarises(tree: DataDir, after: DataDir, s: FolderSummary, k: int) {
    && 0 <= k < |tree| && k < |after| && tree[k].Folder? && after[k].Folder?
    && s == FolderSummary(tree[k].name, CountOrphans(tree[k].files, Names(tree[k].files)), CountImages(after[k].files))
    && s.deleted + s.kept == CountImages(tree[k].files)
  }

  /** The positions of the species folders in the data directory listing. */
  function FolderPositions(tree: DataDir): (ps: seq<nat>)
    ensures forall i :: 0 <= i < |ps| ==> ps[i] < |tree| && tree[ps[i]].Folder?
    decreases |tree|
  {
    if |tree| == 0 then []
    else FolderPositions(tree[..|tree| - 1]) + (if tree[|tree| - 1].Folder? then [|tree| - 1] else [])
  }

  /** There is one summary line per species folder, in listing order, and
      each adds up: deleted plus kept is the folder's image count, and kept
      is the number of images left in it. */
  lemma {:induction false} SummariesAddUp(tree: DataDir)
    ensures |Clean(tree).summaries| == |FolderPositions(tree)|
    ensures forall i :: 0 <= i < |Clean(tree).summaries| ==>
              Summarises(tree, Clean(tree).after, Clean(tree).summaries[i], FolderPositions(tree)[i])
    decreases |tree|
  {
    if |tree| > 0 {
      var init := tree[..|tree| - 1];
      SummariesAddUp(init);
      var e := tree[|tree| - 1];
      var prev := Clean(init);
      var r := Clean(tree);
      var ps := FolderPositions(tree);
      assert r.after == prev.after + [CleanEntry(e)];
      assert ps[..|FolderPositions(init)|] == FolderPositions(init);
      forall i | 0 <= i < |prev.summaries|
        ensures Summarises(tree, r.after, r.summaries[i], ps[i])
      {
        var k := FolderPositions(init)[i];
        assert tree[k] == init[k] && r.after[k] == prev.after[k];
        assert r.summaries[i] == prev.summaries[i];
      }
      if e.Folder? {
        SurvivingImages(e.files, Names(e.files));
      }
    }
  }

  /** Over the whole tree, images processed minus images deleted is the
      number of images left. */
  lemma {:induction false} TotalsAddUp(tree: DataDir)
    ensures Clean(tree).totalImages == TotalImages(tree)
    ensures Clean(tree).totalImages - Clean(tree).deleted == TotalImages(Clean(tree).after)
    decreases |tree|
  {
    if |tree| > 0 {
      var init := tree[..|tree| - 1];
      TotalsAddUp(init);
      var e := tree[|tree| - 1];
      var prev := Clean(init);
      var r := Clean(tree);
      assert r.after == prev.after + [CleanEntry(e)];
      assert r.after[..|init|] == prev.after;
      if e.Folder? {
        SurvivingImages(e.files, Names(e.files));
      }
    }
  }

  // ---------------------------------------------------------------------
  // Preview and confirmation
  // ---------------------------------------------------------------------

  /** A path `os.path.join(data_dir, folder, file)`, kept as its three
      components; `Render` gives the string. */
  datatype FilePath = FilePath(dataDir: string, folder: string, file: string)

  function Render(p: FilePath): string {
    JoinPath(JoinPath(p.dataDir, p.folder), p.file)
  }

  /** The paths `preview_cleanup` lists and the number of images it saw. */
  datatype Preview = Preview(toDelete: seq<FilePath>, totalImages: nat)

  /** The paths of a folder's orphaned images, in listing order. */
  function OrphanPaths(dataDir: string, folder: string, files: seq<FileEntry>, names: set<string>): (ps: seq<FilePath>)
    ensures |ps| == CountOrphans(files, names)
    decreases |files|
  {
    if |files| == 0 then []
    else
      var f := files[|files| - 1];
      OrphanPaths(dataDir, folder, files[..|files| - 1], names)
        + (if Orphan(f.name, names) then [FilePath(dataDir, folder, f.name)] else [])
  }

  /** `preview_cleanup`: it reads the tree and changes nothing. */
  function PreviewCleanup(dataDir: string, tree: DataDir): (p: Preview)
    ensures p.totalImages == Clean(tree).totalImages
    ensures |p.toDelete| == Clean(tree).deleted
    decreases |tree|
  {
    if |tree| == 0 then Preview([], 0)
    else
      var prev := PreviewCleanup(dataDir, tree[..|tree| - 1]);
      match tree[|tree| - 1]
      case NotADirectory(_) => prev
      case Folder(name, files) =>
        Preview(prev.toDelete + OrphanPaths(dataDir, name, files, Names(files)),
                prev.totalImages + CountImages(files))
  }

  /** `f` is an orphaned image of the listing whose path is `p`. */
  ghost predicate OrphanAt(dataDir: string, folder: string, files: seq<FileEntry>, names: set<string>, f: FileEntry, p: FilePath) {
    f in files && Orphan(f.name, names) && p == FilePath(dataDir, folder, f.name)
  }

  /** Every path a folder lists is that of one of its orphaned images. */
  lemma {:induction false} ListedPathIsOrphan(dataDir: string, folder: string, files: seq<FileEntry>, names: set<string>, p: FilePath)
    requires p in OrphanPaths(dataDir, folder, files, names)
    ensures exists f :: OrphanAt(dataDir, folder, files, names, f, p)
    decreases |files|
  {
    var init := files[..|files| - 1];
    var last := files[|files| - 1];
    if p in OrphanPaths(dataDir, folder, init, names) {
      ListedPathIsOrphan(dataDir, folder, init, names, p);
      var f :| OrphanAt(dataDir, folder, init, names, f, p);
      assert OrphanAt(dataDir, folder, files, names, f, p);
    } else {
      assert OrphanAt(dataDir, folder, files, names, last, p);
    }
  }

  /** Every orphaned image of a folder has its path listed. */
  lemma {:induction false} OrphanIsListed(dataDir: string, folder: string, files: seq<FileEntry>, names: set<string>, f: FileEntry)
    requires f in files && Orphan(f.name, names)
    ensures FilePath(dataDir, folder, f.name) in OrphanPaths(dataDir, folder, files, names)
    decreases |files|
  {
    var init := files[..|files| - 1];
    assert files == init + [files[|files| - 1]];
    if f in init {
      OrphanIsListed(dataDir, folder, init, names, f);
    }
  }

  /** Entry `f` of folder `k` is removed by cleanup and lives at path `p`. */
  ghost predicate RemovedAt(dataDir: string, tree: DataDir, k: int, f: FileEntry, p: FilePath) {
    && 0 <= k < |tree| && tree[k].Folder? && f in tree[k].files
    && f !in Clean(tree).after[k].files
    && p == FilePath(dataDir, tree[k].name, f.name)
  }

  /** Every path the preview lists is that of an entry cleanup removes. */
  lemma {:induction false} PreviewedIsRemoved(dataDir: string, tree: DataDir, p: FilePath)
    requires p in PreviewCleanup(dataDir, tree).toDelete
    ensures exists k, f :: RemovedAt(dataDir, tree, k, f, p)
    decreases |tree|
  {
    var init := tree[..|tree| - 1];
    var e := tree[|tree| - 1];
    var before := PreviewCleanup(dataDir, init).toDelete;
    var here := if e.Folder? then OrphanPaths(dataDir, e.name, e.files, Names(e.files)) else [];
    assert PreviewCleanup(dataDir, tree).toDelete == before + here;
    if p in before {
      PreviewedIsRemoved(dataDir, init, p);
      var k, f :| RemovedAt(dataDir, init, k, f, p);
      assert init[k] == tree[k] && Clean(init).after[k] == Clean(tree).after[k];
      assert RemovedAt(dataDir, tree, k, f, p);
    } else {
      ListedPathIsOrphan(dataDir, e.name, e.files, Names(e.files), p);
      var f :| OrphanAt(dataDir, e.name, e.files, Names(e.files), f, p);
      assert RemovedAt(dataDir, tree, |tree| - 1, f, p);
    }
  }

  /** Every entry cleanup removes is listed by the preview. */
  lemma {:induction false} RemovedIsPreviewed(dataDir: string, tree: DataDir, k: int, f: FileEntry, p: FilePath)
    requires RemovedAt(dataDir, tree, k, f, p)
    ensures p in PreviewCleanup(dataDir, tree).toDelete
    decreases |tree|
  {
    var init := tree[..|tree| - 1];
    var e := tree[|tree| - 1];
    var before := PreviewCleanup(dataDir, init).toDelete;
    var here := if e.Folder? then OrphanPaths(dataDir, e.name, e.files, Names(e.files)) else [];
    assert PreviewCleanup(dataDir, tree).toDelete == before + here;
    if k < |tree| - 1 {
      assert init[k] == tree[k] && Clean(init).after[k] == Clean(tree).after[k];
      RemovedIsPreviewed(dataDir, init, k, f, p);
    } else {
      OrphanIsListed(dataDir, e.name, e.files, Names(e.files), f);
    }
  }

  /** Preview and cleanup agree: a path is listed by the preview iff it is
      the path of an entry that cleanup removes. */
  lemma PreviewListsWhatCleanRemoves(dataDir: string, tree: DataDir, p: FilePath)
    ensures p in PreviewCleanup(dataDir, tree).toDelete <==> exists k, f :: RemovedAt(dataDir, tree, k, f, p)
  {
    if p in PreviewCleanup(dataDir, tree).toDelete {
      PreviewedIsRemoved(dataDir, tree, p);
    }
    if exists k, f :: RemovedAt(dataDir, tree, k, f, p) {
      var k, f :| RemovedAt(dataDir, tree, k, f, p);
      RemovedIsPreviewed(dataDir, tree, k, f, p);
    }
  }

  /** The stripped, lower-cased reply is `yes` or `y`. */
  predicate Confirmed(reply: string) {
    var r := Strip(Lower(reply));
    r == "yes" || r == "y"
  }

  lemma LowerConcat(a: string, b: string)
    ensures Lower(a + b) == Lower(a) + Lower(b)
  {
  }

  /** Surrounding whitespace is ignored, and the letters may be in any case. */
  lemma ConfirmedIgnoresPadding(pre: string, core: string, post: string)
    requires AllSpace(pre) && AllSpace(post) && Unpadded(core)
    ensures Confirmed(pre + core + post) <==> Lower(core) == "yes" || Lower(core) == "y"
  {
    LowerConcat(pre + core, post);
    LowerConcat(pre, core);
    assert AllSpace(Lower(pre)) && AllSpace(Lower(post));
    assert Unpadded(Lower(core));
    StripPadded(Lower(pre), Lower(core), Lower(post));
  }

  /** How `main` ends. */
  datatype Outcome = NothingToClean | Cancelled | Cleaned(report: Report)

  /** `main`: preview, stop when there is nothing to delete, otherwise ask
      and clean only on a confirming reply. Returns the outcome and the tree
      as it is afterwards. */
  function CleanupUtility(dataDir: string, tree: DataDir, reply: string): (r: (Outcome, DataDir))
    ensures r.0.Cleaned? <==> |PreviewCleanup(dataDir, tree).toDelete| > 0 && Confirmed(reply)
    ensures r.0.NothingToClean? <==> |PreviewCleanup(dataDir, tree).toDelete| == 0
    ensures Confirmed(reply) ==> r.1 == Clean(tree).after
    ensures !Confirmed(reply) ==> r.1 == tree
  {
    var preview := PreviewCleanup(dataDir, tree);
    if |preview.toDelete| == 0 then
      NoDeletionKeepsTree(tree);
      (NothingToClean, tree)
    else if Confirmed(reply) then
      var report := Clean(tree);
      (Cleaned(report), report.after)
    else
      (Cancelled, tree)
  }

  // ---------------------------------------------------------------------
  // Deleting while iterating
  // ---------------------------------------------------------------------

  predicate DistinctNames(files: seq<FileEntry>) {
    forall i, j :: 0 <= i < j < |files| ==> files[i].name != files[j].name
  }

  lemma NamesConcat(a: seq<FileEntry>, b: seq<FileEntry>)
    ensures Names(a + b) == Names(a) + Names(b)
  {
    forall n | n in Names(a + b)
      ensures n in Names(a) + Names(b)
    {
      var g :| g in a + b && g.name == n;
    }
  }

  /** Everything the live directory holds part way through the loop was listed. */
  lemma LiveNamesListed(files: seq<FileEntry>, i: int)
    requires 0 <= i <= |files|
    ensures Names(Survivors(files[..i], Names(files))) + Names(files[i..]) <= Names(files)
  {
    forall g | g in Survivors(files[..i], Names(files))
      ensures g in files
    {
    }
    forall g | g in files[i..]
      ensures g in files
    {
    }
  }

  /** Part way through the loop, a name that is not an image is present in
      the live directory iff it was listed: only images have been deleted. */
  lemma PartnerVisible(files: seq<FileEntry>, i: int, p: string)
    requires 0 <= i <= |files| && !IsImageName(p)
    ensures p in Names(Survivors(files[..i], Names(files))) + Names(files[i..]) <==> p in Names(files)
  {
    LiveNamesListed(files, i);
    var names := Names(files);
    if p in names {
      var g :| g in files && g.name == p;
      var k :| 0 <= k < |files| && files[k] == g;
      if k < i {
        assert g in files[..i];
        assert g in Survivors(files[..i], names);
      } else {
        assert g == files[i..][k - i];
      }
    }
  }

  /** One turn of the loop on an entry that stays: the live directory is unchanged. */
  lemma InPlaceKeep(files: seq<FileEntry>, i: int)
    requires 0 <= i < |files| && !Orphan(files[i].name, Names(files))
    ensures Names(Survivors(files[..i + 1], Names(files))) + Names(files[i + 1..])
         == Names(Survivors(files[..i], Names(files))) + Names(files[i..])
  {
    var names := Names(files);
    var f := files[i];
    var prev := Survivors(files[..i], names);
    assert files[..i + 1] == files[..i] + [f];
    assert files[..i + 1][..i] == files[..i];
    assert Survivors(files[..i + 1], names) == prev + [f];
    assert files[i..] == [f] + files[i + 1..];
    NamesConcat([f], files[i + 1..]);
    NamesConcat(prev, [f]);
  }

  /** One turn of the loop on an orphaned image: the live directory loses
      exactly that name, which no other listed entry carries. */
  lemma InPlaceDelete(files: seq<FileEntry>, i: int)
    requires DistinctNames(files) && 0 <= i < |files| && Orphan(files[i].name, Names(files))
    ensures Names(Survivors(files[..i + 1], Names(files))) + Names(files[i + 1..])
         == Names(Survivors(files[..i], Names(files))) + Names(files[i..]) - {files[i].name}
  {
    var names := Names(files);
    var f := files[i];
    var prev := Survivors(files[..i], names);
    assert files[..i + 1] == files[..i] + [f];
    assert files[..i + 1][..i] == files[..i];
    assert Survivors(files[..i + 1], names) == prev;
    assert files[i..] == [f] + files[i + 1..];
    NamesConcat([f], files[i + 1..]);
    NameOnlyAt(files, i);
    assert Names(prev) <= Names(files[..i]);
  }

  /** In a listing with distinct names, entry `i`'s name occurs nowhere else. */
  lemma NameOnlyAt(files: seq<FileEntry>, i: int)
    requires DistinctNames(files) && 0 <= i < |files|
    ensures files[i].name !in Names(files[..i]) && files[i].name !in Names(files[i + 1..])
  {
    forall g | g in files[..i]
      ensures g.name != files[i].name
    {
      var k :| 0 <= k < i && files[..i][k] == g;
      assert files[k] == g;
    }
    forall g | g in files[i + 1..]
      ensures g.name != files[i].name
    {
      var k :| 0 <= k < |files| - i - 1 && files[i + 1..][k] == g;
      assert files[i + 1 + k] == g;
    }
  }

  /** The loop body of `clean_images_without_metadata` on one folder, run
      against the live directory: the existence check sees the deletions
      made so far. The names `os.listdir` gave are distinct. The result is
      what `Survivors` describes, because a deleted entry is never a
      metadata partner. */
  method CleanFolderInPlace(files: seq<FileEntry>) returns (present: set<string>, images: nat, deleted: nat)
    requires DistinctNames(files)
    ensures present == Names(Survivors(files, Names(files)))
    ensures images == CountImages(files)
    ensures deleted == CountOrphans(files, Names(files))
  {
    var names := Names(files);
    present := names;
    images, deleted := 0, 0;
    assert files[0..] == files;
    for i := 0 to |files|
      invariant present == Names(Survivors(files[..i], names)) + Names(files[i..])
      invariant images == CountImages(files[..i])
      invariant deleted == CountOrphans(files[..i], names)
    {
      var f := files[i];
      assert files[..i + 1][..i] == files[..i];
      assert files[..i + 1][i] == f;
      if IsImageName(f.name) {
        images := images + 1;
        var partner := MetadataPartner(f.name);
        PartnerVisible(files, i, partner);
        if partner !in present {
          InPlaceDelete(files, i);
          present := present - {f.name};
          deleted := deleted + 1;
        } else {
          InPlaceKeep(files, i);
        }
      } else {
        InPlaceKeep(files, i);
      }
    }
    assert files[..|files|] == files;
  }
}

=== FILE: dicts.dfy ===
/** Python's `dict` with string keys: insertion-ordered, and assigning to an
    existing key replaces its value in place without moving it. */
module Dicts {
  import opened Wrappers

  /** The keys in insertion order, and the value stored under each. */
  datatype Dict<V> = Dict(keys: seq<string>, values: map<string, V>)

  /** Each key is listed once, and exactly the listed keys have values. */
  predicate Valid<V>(d: Dict<V>) {
    && (forall i, j :: 0 <= i < j < |d.keys| ==> d.keys[i] != d.keys[j])
    && (forall k :: k in d.keys ==> k in d.values)
    && (forall k :: k in d.values ==> k in d.keys)
  }

  /** `{}`. */
  function Empty<V>(): (d: Dict<V>)
    ensures Valid(d) && |d.keys| == 0
  {
    Dict([], map[])
  }

  /** `d.get(k)`. */
  function Get<V>(d: Dict<V>, k: string): Option<V> {
    if k in d.values then Some(d.values[k]) else None
  }

  /** `d[k] = v`: the key maps to the value, every other key keeps its
      value, a present key keeps its position and a new key goes last. */
  function Put<V>(d: Dict<V>, k: string, v: V): (d': Dict<V>)
    requires Valid(d)
    ensures Valid(d')
    ensures Get(d', k) == Some(v)
    ensures forall k' :: k' != k ==> Get(d', k') == Get(d, k')
    ensures k in d.keys ==> d'.keys == d.keys
    ensures k !in d.keys ==> d'.keys == d.keys + [k]
  {
    if k in d.keys then Dict(d.keys, d.values[k := v]) else Dict(d.keys + [k], d.values[k := v])
  }

  /** `list(d.items())`: the keys in order, each with its value. */
  function Items<V>(d: Dict<V>): (items: seq<(string, V)>)
    requires Valid(d)
    ensures |items| == |d.keys|
    ensures forall i :: 0 <= i < |items| ==> items[i].0 == d.keys[i] && Get(d, d.keys[i]) == Some(items[i].1)
  {
    seq(|d.keys|, i requires 0 <= i < |d.keys| => (d.keys[i], d.values[d.keys[i]]))
  }
}

=== FILE: download.dfy ===
/** `api.py`: which observations `download_inat_images` saves, under which
    path, from which URL, and how many. The observation API is a parameter:
    `fetch` maps a request to the `results` list of its response. */
module Download {
  import opened Wrappers
  import opened Strings
  import opened Numerals
  import opened DataTree
  import Cleanup

  datatype Photo = Photo(url: string)

  /** One element of `results`: its `id`, its `taxon.name` (absent when the
      taxon or its name is missing) and its `photos` (absent when missing). */
  datatype Observation = Observation(id: int, taxonName: Option<string>, photos: Option<seq<Photo>>)

  /** The query parameters of one page request. */
  datatype Request = Request(taxonName: string, qualityGrade: string, has: string, perPage: int, page: int)

  /** One image write: the file path and the URL whose bytes it receives. */
  datatype Saved = Saved(path: string, url: string)

  const ResearchGrade: string := "research"
  const WithPhotos: string := "photos"

  /** The query parameters of page `page`. */
  function PageRequest(taxonName: string, perPage: int, page: int): Request {
    Request(taxonName, ResearchGrade, WithPhotos, perPage, page)
  }

  /** `"photos" in obs and obs["photos"]`. */
  predicate HasPhotos(o: Observation) {
    o.photos.Some? && |o.photos.value| > 0
  }

  /** The medium-size variant of a photo URL. */
  function MediumUrl(url: string): string {
    ReplaceAll(url, "square", "medium")
  }

  /** `f"{obs['id']}.jpg"`. */
  function ImageFileName(id: int): string {
    Decimal(id) + ImageSuffix
  }

  /** `<out_dir>/<species>/<id>.jpg`. */
  function ImagePath(outDir: string, o: Observation): string {
    JoinPath(JoinPath(outDir, SpeciesFolder(o.taxonName)), ImageFileName(o.id))
  }

  /** What one observation contributes: the first photo, at medium size. */
  function SaveOf(outDir: string, o: Observation): (s: Option<Saved>)
    ensures s.Some? <==> HasPhotos(o)
  {
    if HasPhotos(o) then Some(Saved(ImagePath(outDir, o), MediumUrl(o.photos.value[0].url))) else None
  }

  /** The number of observations with photos. */
  function CountWithPhotos(obs: seq<Observation>): nat
    decreases |obs|
  {
    if |obs| == 0 then 0 else CountWithPhotos(obs[..|obs| - 1]) + (if HasPhotos(obs[|obs| - 1]) then 1 else 0)
  }

  /** The writes for a list of observations, in order. */
  function SavesOf(outDir: string, obs: seq<Observation>): (saves: seq<Saved>)
    ensures |saves| == CountWithPhotos(obs)
    decreases |obs|
  {
    if |obs| == 0 then []
    else
      var o := obs[|obs| - 1];
      SavesOf(outDir, obs[..|obs| - 1]) + (if HasPhotos(o) then [SaveOf(outDir, o).value] else [])
  }

  /** The results of all pages, in page order. */
  function Flatten(pages: seq<seq<Observation>>): seq<Observation>
    decreases |pages|
  {
    if |pages| == 0 then [] else Flatten(pages[..|pages| - 1]) + pages[|pages| - 1]
  }

  lemma {:induction false} SavesOfConcat(outDir: string, a: seq<Observation>, b: seq<Observation>)
    ensures SavesOf(outDir, a + b) == SavesOf(outDir, a) + SavesOf(outDir, b)
    decreases |b|
  {
    if |b| == 0 {
      assert a + b == a;
    } else {
      var b' := b[..|b| - 1];
      assert (a + b)[..|a + b| - 1] == a + b';
      SavesOfConcat(outDir, a, b');
    }
  }

  /** Observation `i` has photos and `s` is its write. */
  ghost predicate SavedFrom(outDir: string, obs: seq<Observation>, i: int, s: Saved) {
    0 <= i < |obs| && HasPhotos(obs[i]) && s == Saved(ImagePath(outDir, obs[i]), MediumUrl(obs[i].photos.value[0].url))
  }

  /** Every write comes from an observation with photos, from its first
      photo's medium URL to `<out_dir>/<species>/<id>.jpg`. */
  lemma {:induction false} SavesComeFromObservations(outDir: string, obs: seq<Observation>, s: Saved)
    requires s in SavesOf(outDir, obs)
    ensures exists i :: SavedFrom(outDir, obs, i, s)
    decreases |obs|
  {
    var init := obs[..|obs| - 1];
    if s in SavesOf(outDir, init) {
      SavesComeFromObservations(outDir, init, s);
      var i :| SavedFrom(outDir, init, i, s);
      assert SavedFrom(outDir, obs, i, s);
    } else {
      assert SavedFrom(outDir, obs, |obs| - 1, s);
    }
  }

  /** Every observation with photos is written. */
  lemma {:induction false} ObservationsAreSaved(outDir: string, obs: seq<Observation>, i: int)
    requires 0 <= i < |obs| && HasPhotos(obs[i])
    ensures SaveOf(outDir, obs[i]).value in SavesOf(outDir, obs)
    decreases |obs|
  {
    if i < |obs| - 1 {
      var init := obs[..|obs| - 1];
      assert init[i] == obs[i];
      ObservationsAreSaved(outDir, init, i);
    }
  }

  /** The result lists of the requests, in order. */
  function PagesOf(fetch: Request -> seq<Observation>, requests: seq<Request>): (pages: seq<seq<Observation>>)
    ensures |pages| == |requests|
    ensures forall i :: 0 <= i < |requests| ==> pages[i] == fetch(requests[i])
    decreases |requests|
  {
    if |requests| == 0 then []
    else PagesOf(fetch, requests[..|requests| - 1]) + [fetch(requests[|requests| - 1])]
  }

  /** The inner loop: the writes for one page of results. */
  method SavePage(outDir: string, results: seq<Observation>) returns (saves: seq<Saved>)
    ensures saves == SavesOf(outDir, results)
  {
    saves := [];
    var j := 0;
    while j < |results|
      invariant 0 <= j <= |results|
      invariant saves == SavesOf(outDir, results[..j])
    {
      var o := results[j];
      assert results[..j + 1][..j] == results[..j];
      if o.photos.Some? && |o.photos.value| > 0 {
        var url := MediumUrl(o.photos.value[0].url);
        var path := JoinPath(JoinPath(outDir, SpeciesFolder(o.taxonName)), Decimal(o.id) + ".jpg");
        saves := saves + [Saved(path, url)];
      }
      j := j + 1;
    }
    assert results[..|results|] == results;
  }

  /** `download_inat_images`: requests pages `1..max_pages`, and for each
      result with photos writes the first photo to its species folder,
      counting the writes. */
  method DownloadImages(taxonName: string, perPage: int, maxPages: int, outDir: string,
                        fetch: Request -> seq<Observation>)
    returns (requests: seq<Request>, saved: seq<Saved>, count: nat)
    ensures |requests| == (if maxPages > 0 then maxPages else 0)
    ensures forall i :: 0 <= i < |requests| ==>
              && requests[i].taxonName == taxonName && requests[i].perPage == perPage
              && requests[i].qualityGrade == ResearchGrade && requests[i].has == WithPhotos
              && requests[i].page == i + 1
    ensures saved == SavesOf(outDir, Flatten(PagesOf(fetch, requests)))
    ensures count == |saved| == CountWithPhotos(Flatten(PagesOf(fetch, requests)))
  {
    requests, saved, count := [], [], 0;
    var page := 1;
    while page <= maxPages
      invariant 1 <= page <= (if maxPages > 0 then maxPages else 0) + 1
      invariant |requests| == page - 1
      invariant forall i :: 0 <= i < |requests| ==> requests[i] == PageRequest(taxonName, perPage, i + 1)
      invariant saved == SavesOf(outDir, Flatten(PagesOf(fetch, requests)))
      invariant count == |saved|
      decreases maxPages - page
    {
      var q := PageRequest(taxonName, perPage, page);
      var results := fetch(q);
      var saves := SavePage(outDir, results);
      SavesOfConcat(outDir, Flatten(PagesOf(fetch, requests)), results);
      assert (requests + [q])[..|requests|] == requests;
      requests := requests + [q];
      saved := saved + saves;
      count := count + |saves|;
      page := page + 1;
    }
  }

  /** The saved URL never asks for the `square` size, has the length of the
      original, and is the original when it names no size. */
  lemma MediumUrlShape(url: string)
    ensures !Contains(MediumUrl(url), "square")
    ensures |MediumUrl(url)| == |url|
    ensures !Contains(url, "square") ==> MediumUrl(url) == url
  {
    RewriteLeavesNoSquare(url);
  }

  /** The saved file is what the cleanup utility treats as an image, whose
      id is the observation id and whose metadata file is
      `<id>_metadata.json`. */
  lemma ImageFileNameShape(id: int)
    ensures IsImageName(ImageFileName(id)) && !IsMetadataName(ImageFileName(id))
    ensures Cleanup.ImageId(ImageFileName(id)) == Decimal(id)
    ensures Cleanup.MetadataPartner(ImageFileName(id)) == Decimal(id) + MetadataSuffix
  {
    var n := ImageFileName(id);
    assert n[|n| - 4..] == ImageSuffix;
    assert n[|n| - 1] == 'g';
  }

  /** Two observations get the same file name iff they have the same id. */
  lemma ImageFileNameInjective(a: int, b: int)
    ensures ImageFileName(a) == ImageFileName(b) <==> a == b
  {
    if ImageFileName(a) == ImageFileName(b) {
      var na, nb := ImageFileName(a), ImageFileName(b);
      assert Decimal(a) == na[..|na| - 4];
      assert Decimal(b) == nb[..|nb| - 4];
      DecimalInjective(a, b);
    }
  }

  /** The path ends in the file name and begins with the species folder
      under the output directory. */
  lemma ImagePathShape(outDir: string, o: Observation)
    ensures EndsWith(ImagePath(outDir, o), ImageFileName(o.id))
    ensures StartsWith(ImagePath(outDir, o), JoinPath(outDir, SpeciesFolder(o.taxonName)))
  {
    var n := ImageFileName(o.id);
    assert n[0] == Decimal(o.id)[0];
    assert !StartsWith(n, "/");
    JoinPathShape(JoinPath(outDir, SpeciesFolder(o.taxonName)), n);
  }
}

=== FILE: numerals.dfy ===
/** Python's `str(n)` for integers, with its inverse. Observation ids become
    file names through it. */
module Numerals {
  import opened Wrappers

  predicate IsDigit(c: char) {
    '0' <= c <= '9'
  }

  predicate AllDigits(s: string) {
    forall i :: 0 <= i < |s| ==> IsDigit(s[i])
  }

  function DigitChar(d: nat): (c: char)
    requires d < 10
    ensures IsDigit(c)
  {
    (48 + d) as char
  }

  function DigitValue(c: char): (d: nat)
    requires IsDigit(c)
    ensures d < 10
  {
    c as int - 48
  }

  /** The decimal digits of `n`, most significant first, without leading zeros. */
  function Digits(n: nat): (r: string)
    ensures |r| > 0 && AllDigits(r)
    ensures |r| > 1 ==> r[0] != '0'
    decreases n
  {
    if n < 10 then [DigitChar(n)] else Digits(n / 10) + [DigitChar(n % 10)]
  }

  /** The number a string of decimal digits denotes. */
  function DigitsValue(s: string): nat
    requires AllDigits(s)
    decreases |s|
  {
    if |s| == 0 then 0 else DigitsValue(s[..|s| - 1]) * 10 + DigitValue(s[|s| - 1])
  }

  lemma {:induction false} DigitsRoundTrip(n: nat)
    ensures DigitsValue(Digits(n)) == n
    decreases n
  {
    if n >= 10 {
      DigitsRoundTrip(n / 10);
      var r := Digits(n);
      assert r[..|r| - 1] == Digits(n / 10);
    }
  }

  /** `str(n)`: an optional minus sign followed by the digits of `|n|`. */
  function Decimal(n: int): (r: string)
    ensures |r| > 0
    ensures (r[0] == '-') <==> n < 0
    ensures AllDigits(r[1..])
  {
    if n < 0 then "-" + Digits(-n) else Digits(n)
  }

  /** The integer a canonical decimal string denotes, if it is one. */
  function DecimalValue(s: string): Option<int> {
    if |s| > 1 && s[0] == '-' && AllDigits(s[1..]) then Some(0 - DigitsValue(s[1..]) as int)
    else if |s| > 0 && AllDigits(s) then Some(DigitsValue(s))
    else None
  }

  /** Reading a printed integer back gives the integer. */
  lemma DecimalRoundTrip(n: int)
    ensures DecimalValue(Decimal(n)) == Some(n)
  {
    if n < 0 {
      DigitsRoundTrip(-n);
      assert Decimal(n)[1..] == Digits(-n);
    } else {
      DigitsRoundTrip(n);
    }
  }

  /** Distinct integers print differently. */
  lemma DecimalInjective(a: int, b: int)
    ensures Decimal(a) == Decimal(b) <==> a == b
  {
    DecimalRoundTrip(a);
    DecimalRoundTrip(b);
  }
}

=== FILE: species_map.dfy ===
/** `map_app.py`: reading one species' coordinates from its metadata files,
    and the centroid / furthest-pair summary shown on the species map. */
module SpeciesMap {
  import opened Wrappers
  import opened Stats
  import opened DataTree

  /** A coordinate tuple `(lat, lon, obs_id, image_url)`. */
  datatype Sighting = Sighting(lat: real, lon: real, obsId: int, imageUrl: string)

  /** One of the two furthest points, `(lat, lon, obs_id)`. */
  datatype Endpoint = Endpoint(lat: real, lon: real, obsId: int)

  /** The centroid, the maximum distance and the two furthest points. */
  datatype Span = Span(centroid: Option<(real, real)>, maxDistance: real, first: Option<Endpoint>, second: Option<Endpoint>)

  /** The great-circle distance from `(lat1, lon1)` to `(lat2, lon2)`, in km. */
  type Distance = (real, real, real, real) -> real

  // ---------------------------------------------------------------------
  // Loading a species folder
  // ---------------------------------------------------------------------

  /** A folder entry yields a coordinate when it is named `*_metadata.json`,
      parses, flags `has_coordinates`, and has a latitude, a longitude and an
      observation id. Any other entry is skipped. */
  predicate Usable(f: FileEntry) {
    && IsMetadataName(f.name)
    && f.content.Parsed?
    && FlagsCoordinates(f.content.meta)
    && f.content.meta.coordinates.value.latitude.Some?
    && f.content.meta.coordinates.value.longitude.Some?
    && f.content.meta.observationId.Some?
  }

  /** The tuple a usable entry yields; a missing image URL reads as `''`. */
  function SightingOf(f: FileEntry): Sighting
    requires Usable(f)
  {
    var m := f.content.meta;
    Sighting(m.coordinates.value.latitude.value, m.coordinates.value.longitude.value,
                m.observationId.value, m.imageUrl.GetOr(""))
  }

  /** The tuples of the usable entries, in listing order. */
  function Included(files: seq<FileEntry>): seq<Sighting>
    decreases |files|
  {
    if |files| == 0 then []
    else
      var f := files[|files| - 1];
      var prev := Included(files[..|files| - 1]);
      if Usable(f) then prev + [SightingOf(f)] else prev
  }

  /** A name Python treats as true: present and non-empty. */
  predicate Truthy(name: Option<string>) {
    name.Some? && |name.value| > 0
  }

  /** The first non-empty common name among the usable entries. */
  function FirstCommonName(files: seq<FileEntry>): (r: Option<string>)
    ensures r.Some? ==> Truthy(r)
    ensures r.Some? ==> exists k :: 0 <= k < |files| && Usable(files[k]) && files[k].content.meta.commonName == r
    decreases |files|
  {
    if |files| == 0 then None
    else if Usable(files[0]) && Truthy(files[0].content.meta.commonName) then files[0].content.meta.commonName
    else
      var r := FirstCommonName(files[1..]);
      if r.Some? then
        var k :| 0 <= k < |files[1..]| && Usable(files[1..][k]) && files[1..][k].content.meta.commonName == r;
        assert files[k + 1] == files[1..][k];
        r
      else r
  }

  /** The common name of the last usable entry, absent when there is none. */
  function LastCommonName(files: seq<FileEntry>): Option<string>
    decreases |files|
  {
    if |files| == 0 then None
    else if Usable(files[|files| - 1]) then files[|files| - 1].content.meta.commonName
    else LastCommonName(files[..|files| - 1])
  }

  lemma {:induction false} FirstCommonNameExtend(files: seq<FileEntry>, f: FileEntry)
    ensures FirstCommonName(files + [f])
         == if FirstCommonName(files).Some? then FirstCommonName(files)
            else if Usable(f) && Truthy(f.content.meta.commonName) then f.content.meta.commonName
            else None
    decreases |files|
  {
    if |files| == 0 {
      assert files + [f] == [f];
      assert [f][1..] == [];
    } else {
      assert (files + [f])[0] == files[0];
      assert (files + [f])[1..] == files[1..] + [f];
      FirstCommonNameExtend(files[1..], f);
    }
  }

  /** `load_species_coordinates`: every usable entry's tuple, in listing
      order, and the common name of the first usable record that has a
      non-empty one. When none has, the name is whatever the last usable
      record carried (absent or empty): the loop overwrites it as long as
      it is not truthy. */
  method LoadSpeciesCoordinates(files: seq<FileEntry>) returns (coords: seq<Sighting>, commonName: Option<string>)
    ensures coords == Included(files)
    ensures FirstCommonName(files).Some? ==> commonName == FirstCommonName(files)
    ensures FirstCommonName(files).None? ==> !Truthy(commonName) && commonName == LastCommonName(files)
    ensures commonName.Some? ==>
              exists k :: 0 <= k < |files| && Usable(files[k]) && files[k].content.meta.commonName == commonName
  {
    coords := [];
    commonName := None;
    for i := 0 to |files|
      invariant coords == Included(files[..i])
      invariant FirstCommonName(files[..i]).Some? ==> commonName == FirstCommonName(files[..i])
      invariant FirstCommonName(files[..i]).None? ==> !Truthy(commonName) && commonName == LastCommonName(files[..i])
      invariant commonName.Some? ==>
                  exists k :: 0 <= k < i && Usable(files[k]) && files[k].content.meta.commonName == commonName
    {
      var f := files[i];
      assert files[..i + 1] == files[..i] + [f];
      assert files[..i + 1][..i] == files[..i];
      FirstCommonNameExtend(files[..i], f);
      if IsMetadataName(f.name) && f.content.Parsed? {
        var m := f.content.meta;
        if FlagsCoordinates(m) {
          var c := m.coordinates.value;
          if c.latitude.Some? && c.longitude.Some? && m.observationId.Some? {
            coords := coords + [Sighting(c.latitude.value, c.longitude.value, m.observationId.value, m.imageUrl.GetOr(""))];
            if !Truthy(commonName) {
              commonName := m.commonName;
            }
          }
        }
      }
    }
    assert files[..|files|] == files;
  }

  /** Loading a listing in two parts loads the parts one after the other:
      no entry is dropped, duplicated or moved. */
  lemma {:induction false} IncludedSplit(a: seq<FileEntry>, b: seq<FileEntry>)
    ensures Included(a + b) == Included(a) + Included(b)
    decreases |b|
  {
    if |b| == 0 {
      assert a + b == a;
    } else {
      var b' := b[..|b| - 1];
      assert (a + b)[..|a + b| - 1] == a + b';
      assert (a + b)[|a + b| - 1] == b[|b| - 1];
      IncludedSplit(a, b');
    }
  }

  /** A tuple is loaded iff some usable entry yields it. */
  lemma {:induction false} IncludedMembers(files: seq<FileEntry>, o: Sighting)
    ensures o in Included(files) <==> exists k :: 0 <= k < |files| && Usable(files[k]) && SightingOf(files[k]) == o
    decreases |files|
  {
    if |files| > 0 {
      var init := files[..|files| - 1];
      IncludedMembers(init, o);
      assert forall k :: 0 <= k < |init| ==> init[k] == files[k];
    }
  }

  /** Entries that are not usable do not change what is loaded. */
  lemma {:induction false} IncludedSkipsUnusable(files: seq<FileEntry>)
    requires forall k :: 0 <= k < |files| ==> !Usable(files[k])
    ensures Included(files) == []
    decreases |files|
  {
    if |files| > 0 {
      IncludedSkipsUnusable(files[..|files| - 1]);
    }
  }

  // ---------------------------------------------------------------------
  // Centroid and furthest pair
  // ---------------------------------------------------------------------

  function Lats(coords: seq<Sighting>): seq<real> {
    seq(|coords|, i requires 0 <= i < |coords| => coords[i].lat)
  }

  function Lons(coords: seq<Sighting>): seq<real> {
    seq(|coords|, i requires 0 <= i < |coords| => coords[i].lon)
  }

  function PairDistance(coords: seq<Sighting>, dist: Distance, i: int, j: int): real
    requires 0 <= i < |coords| && 0 <= j < |coords|
  {
    dist(coords[i].lat, coords[i].lon, coords[j].lat, coords[j].lon)
  }

  function EndpointOf(o: Sighting): Endpoint {
    Endpoint(o.lat, o.lon, o.obsId)
  }

  /** The nested loop visits pair (i, j) before pair (a, b). */
  predicate ScannedBefore(i: int, j: int, a: int, b: int) {
    i < a || (i == a && j < b)
  }

  /** No pair is further apart than `m`. */
  ghost predicate Bounds(coords: seq<Sighting>, dist: Distance, m: real) {
    forall i, j :: 0 <= i < j < |coords| ==> PairDistance(coords, dist, i, j) <= m
  }

  /** (a, b) is a pair at distance `m` and every pair scanned before it is
      strictly closer. */
  ghost predicate FirstAtDistance(coords: seq<Sighting>, dist: Distance, a: int, b: int, m: real) {
    && 0 <= a < b < |coords|
    && PairDistance(coords, dist, a, b) == m
    && forall i, j :: 0 <= i < j < |coords| && ScannedBefore(i, j, a, b) ==> PairDistance(coords, dist, i, j) < m
  }

  /** `calculate_centroid_and_max_span`. */
  method CentroidAndMaxSpan(coords: seq<Sighting>, dist: Distance) returns (s: Span)
    ensures s.centroid.None? <==> |coords| == 0
    ensures |coords| > 0 ==> s.centroid == Some((Mean(Lats(coords)), Mean(Lons(coords))))
    ensures |coords| == 1 ==> s == Span(Some((coords[0].lat, coords[0].lon)), 0.0, None, None)
    ensures s.maxDistance >= 0.0
    ensures Bounds(coords, dist, s.maxDistance)
    ensures s.first.Some? <==> s.second.Some?
    ensures s.first.None? <==> Bounds(coords, dist, 0.0)
    ensures s.first.None? ==> s.maxDistance == 0.0
    ensures s.first.Some? ==>
              exists a, b :: && FirstAtDistance(coords, dist, a, b, s.maxDistance)
                             && s.first == Some(EndpointOf(coords[a]))
                             && s.second == Some(EndpointOf(coords[b]))
  {
    if |coords| == 0 {
      return Span(None, 0.0, None, None);
    }
    var centroid := (Mean(Lats(coords)), Mean(Lons(coords)));
    var maxDistance := 0.0;
    var first: Option<Endpoint> := None;
    var second: Option<Endpoint> := None;
    ghost var a, b := 0, 0;
    for i := 0 to |coords|
      invariant maxDistance >= 0.0
      invariant forall x, y :: 0 <= x < y < |coords| && x < i ==> PairDistance(coords, dist, x, y) <= maxDistance
      invariant first.Some? <==> second.Some?
      invariant first.None? ==> maxDistance == 0.0
      invariant first.Some? ==> && maxDistance > 0.0 && a < i
                                && FirstAtDistance(coords, dist, a, b, maxDistance)
                                && first == Some(EndpointOf(coords[a])) && second == Some(EndpointOf(coords[b]))
    {
      for j := i + 1 to |coords|
        invariant maxDistance >= 0.0
        invariant forall x, y :: 0 <= x < y < |coords| && ScannedBefore(x, y, i, j) ==> PairDistance(coords, dist, x, y) <= maxDistance
        invariant first.Some? <==> second.Some?
        invariant first.None? ==> maxDistance == 0.0
        invariant first.Some? ==> && maxDistance > 0.0 && ScannedBefore(a, b, i, j)
                                  && FirstAtDistance(coords, dist, a, b, maxDistance)
                                  && first == Some(EndpointOf(coords[a])) && second == Some(EndpointOf(coords[b]))
      {
        var d := dist(coords[i].lat, coords[i].lon, coords[j].lat, coords[j].lon);
        if d > maxDistance {
          maxDistance := d;
          first := Some(Endpoint(coords[i].lat, coords[i].lon, coords[i].obsId));
          second := Some(Endpoint(coords[j].lat, coords[j].lon, coords[j].obsId));
          a, b := i, j;
        }
      }
    }
    if |coords| == 1 {
      MeanOfOne(coords[0].lat);
      MeanOfOne(coords[0].lon);
      assert Lats(coords) == [coords[0].lat];
      assert Lons(coords) == [coords[0].lon];
    }
    s := Span(Some(centroid), maxDistance, first, second);
  }

  /** The contract of `CentroidAndMaxSpan` leaves no choice: two pairs that
      each are first at a distance bounding every pair are the same pair,
      at the same distance. */
  lemma SpanIsDetermined(coords: seq<Sighting>, dist: Distance, a: int, b: int, m: real, a': int, b': int, m': real)
    requires FirstAtDistance(coords, dist, a, b, m) && Bounds(coords, dist, m)
    requires FirstAtDistance(coords, dist, a', b', m') && Bounds(coords, dist, m')
    ensures a == a' && b == b' && m == m'
  {
    assert m <= m' && m' <= m;
  }
}

=== FILE: stats.dfy ===
/** Sums, means and extrema of sequences of reals (Python's `sum`, `min`,
    `max` and `sum(xs) / len(xs)` on float lists, without rounding). */
module Stats {

  /** `sum(xs)`. */
  function Sum(xs: seq<real>): real
    decreases |xs|
  {
    if |xs| == 0 then 0.0 else xs[0] + Sum(xs[1..])
  }

  /** `min(xs)` on a non-empty list. */
  function Min(xs: seq<real>): (m: real)
    requires |xs| > 0
    ensures forall i :: 0 <= i < |xs| ==> m <= xs[i]
    decreases |xs|
  {
    if |xs| == 1 then xs[0]
    else
      var m := Min(xs[1..]);
      assert forall i :: 1 <= i < |xs| ==> xs[i] == xs[1..][i - 1];
      if xs[0] <= m then xs[0] else m
  }

  /** `max(xs)` on a non-empty list. */
  function Max(xs: seq<real>): (m: real)
    requires |xs| > 0
    ensures forall i :: 0 <= i < |xs| ==> xs[i] <= m
    decreases |xs|
  {
    if |xs| == 1 then xs[0]
    else
      var m := Max(xs[1..]);
      assert forall i :: 1 <= i < |xs| ==> xs[i] == xs[1..][i - 1];
      if xs[0] >= m then xs[0] else m
  }

  /** `max(xs) - min(xs)`: the width of the interval the values occupy. */
  function Extent(xs: seq<real>): (w: real)
    requires |xs| > 0
    ensures w >= 0.0
    ensures forall i, j :: 0 <= i < |xs| && 0 <= j < |xs| ==> xs[i] - xs[j] <= w
  {
    Max(xs) - Min(xs)
  }

  /** Some element is the minimum. */
  lemma {:induction false} MinAttained(xs: seq<real>)
    requires |xs| > 0
    ensures exists i :: 0 <= i < |xs| && xs[i] == Min(xs)
    decreases |xs|
  {
    if |xs| == 1 {
      assert xs[0] == Min(xs);
    } else {
      MinAttained(xs[1..]);
      var i :| 0 <= i < |xs[1..]| && xs[1..][i] == Min(xs[1..]);
      if xs[0] <= Min(xs[1..]) {
        assert xs[0] == Min(xs);
      } else {
        assert xs[i + 1] == Min(xs);
      }
    }
  }

  /** Some element is the maximum. */
  lemma {:induction false} MaxAttained(xs: seq<real>)
    requires |xs| > 0
    ensures exists i :: 0 <= i < |xs| && xs[i] == Max(xs)
    decreases |xs|
  {
    if |xs| == 1 {
      assert xs[0] == Max(xs);
    } else {
      MaxAttained(xs[1..]);
      var i :| 0 <= i < |xs[1..]| && xs[1..][i] == Max(xs[1..]);
      if xs[0] >= Max(xs[1..]) {
        assert xs[0] == Max(xs);
      } else {
        assert xs[i + 1] == Max(xs);
      }
    }
  }

  /** The extent is the largest difference of two elements: some pair reaches it. */
  lemma ExtentAttained(xs: seq<real>)
    requires |xs| > 0
    ensures exists i, j :: 0 <= i < |xs| && 0 <= j < |xs| && xs[i] - xs[j] == Extent(xs)
  {
    MaxAttained(xs);
    MinAttained(xs);
    var i :| 0 <= i < |xs| && xs[i] == Max(xs);
    var j :| 0 <= j < |xs| && xs[j] == Min(xs);
    assert xs[i] - xs[j] == Extent(xs);
  }

  lemma ScaleMonotone(n: real, a: real, b: real)
    requires n >= 0.0 && a <= b
    ensures n * a <= n * b
  {
    assert n * b - n * a == n * (b - a);
  }

  lemma {:induction false} SumLowerBound(xs: seq<real>)
    requires |xs| > 0
    ensures (|xs| as real) * Min(xs) <= Sum(xs)
    decreases |xs|
  {
    if |xs| > 1 {
      var rest := xs[1..];
      SumLowerBound(rest);
      var n := |rest| as real;
      var lo := Min(xs);
      assert lo <= Min(rest) by {
        assert forall i :: 0 <= i < |rest| ==> rest[i] == xs[i + 1];
      }
      ScaleMonotone(n, lo, Min(rest));
      assert Sum(xs) == xs[0] + Sum(rest);
      assert (n + 1.0) * lo == n * lo + lo;
      assert (|xs| as real) == n + 1.0;
    }
  }

  lemma {:induction false} SumUpperBound(xs: seq<real>)
    requires |xs| > 0
    ensures Sum(xs) <= (|xs| as real) * Max(xs)
    decreases |xs|
  {
    if |xs| > 1 {
      var rest := xs[1..];
      SumUpperBound(rest);
      var n := |rest| as real;
      var hi := Max(xs);
      assert Max(rest) <= hi by {
        assert forall i :: 0 <= i < |rest| ==> rest[i] == xs[i + 1];
      }
      ScaleMonotone(n, Max(rest), hi);
      assert Sum(xs) == xs[0] + Sum(rest);
      assert (n + 1.0) * hi == n * hi + hi;
      assert (|xs| as real) == n + 1.0;
    }
  }

  /** The sum of `n` values lies between `n` times the least and `n` times
      the greatest. */
  lemma SumBounds(xs: seq<real>)
    requires |xs| > 0
    ensures (|xs| as real) * Min(xs) <= Sum(xs) <= (|xs| as real) * Max(xs)
  {
    SumLowerBound(xs);
    SumUpperBound(xs);
  }

  lemma DivideBounds(s: real, n: real, lo: real, hi: real)
    requires n > 0.0 && n * lo <= s <= n * hi
    ensures lo <= s / n <= hi
  {
    var q := s / n;
    assert q * n == s;
    if q < lo {
      ScaleMonotone(n, q, lo);
    }
    if q > hi {
      ScaleMonotone(n, hi, q);
    }
  }

  /** `sum(xs) / len(xs)`, which lies between the smallest and largest value. */
  function Mean(xs: seq<real>): (m: real)
    requires |xs| > 0
    ensures Min(xs) <= m <= Max(xs)
  {
    SumBounds(xs);
    DivideBounds(Sum(xs), |xs| as real, Min(xs), Max(xs));
    Sum(xs) / (|xs| as real)
  }

  /** The mean of a single value is that value. */
  lemma MeanOfOne(x: real)
    ensures Mean([x]) == x
  {
    assert Min([x]) == x && Max([x]) == x;
  }
}

=== FILE: strings.dfy ===
/** The few `str` operations of Python's standard library that the scripts
    rely on, modelled on `seq<char>`. */
module Strings {

  /** `s.startswith(p)`. */
  predicate StartsWith(s: string, p: string) {
    |p| <= |s| && s[..|p|] == p
  }

  /** `s.endswith(p)`. */
  predicate EndsWith(s: string, p: string) {
    |p| <= |s| && s[|s| - |p|..] == p
  }

  /** `p in s`: `p` occurs at some position of `s`. */
  predicate Contains(s: string, p: string)
    decreases |s|
  {
    StartsWith(s, p) || (|s| > 0 && Contains(s[1..], p))
  }

  /** `s.replace(pat, rep)` for a non-empty pattern: occurrences are found
      left to right and do not overlap. */
  function ReplaceAll(s: string, pat: string, rep: string): (r: string)
    requires |pat| > 0
    ensures |pat| == |rep| ==> |r| == |s|
    ensures !Contains(s, pat) ==> r == s
    decreases |s|
  {
    if |s| == 0 then []
    else if StartsWith(s, pat) then rep + ReplaceAll(s[|pat|..], pat, rep)
    else [s[0]] + ReplaceAll(s[1..], pat, rep)
  }

  /** Replacing a one-character pattern is a character-wise substitution. */
  lemma {:induction false} ReplaceOneChar(s: string, c: char, d: char)
    ensures |ReplaceAll(s, [c], [d])| == |s|
    ensures forall i :: 0 <= i < |s| ==>
              ReplaceAll(s, [c], [d])[i] == (if s[i] == c then d else s[i])
    decreases |s|
  {
    if |s| > 0 {
      ReplaceOneChar(s[1..], c, d);
      assert StartsWith(s, [c]) <==> s[0] == c;
      var rest := ReplaceAll(s[1..], [c], [d]);
      assert ReplaceAll(s, [c], [d]) == [if s[0] == c then d else s[0]] + rest;
    }
  }

  /** After replacing `c` by a different `d`, no `c` is left. */
  lemma ReplaceOneCharRemovesIt(s: string, c: char, d: char)
    requires c != d
    ensures c !in ReplaceAll(s, [c], [d])
  {
    ReplaceOneChar(s, c, d);
    var r := ReplaceAll(s, [c], [d]);
    forall i | 0 <= i < |r|
      ensures r[i] != c
    {
    }
  }

  /** Replacing `c` by `d` and then `d` by `c` gives back the original string
      exactly when the original held no `d`: a `d` already present would be
      turned into a `c` on the way back. */
  lemma ReplaceOneCharRoundTrip(s: string, c: char, d: char)
    requires c != d
    ensures ReplaceAll(ReplaceAll(s, [c], [d]), [d], [c]) == s <==> d !in s
  {
    var r := ReplaceAll(s, [c], [d]);
    ReplaceOneChar(s, c, d);
    ReplaceOneChar(r, d, c);
    var back := ReplaceAll(r, [d], [c]);
    if d in s {
      var i :| 0 <= i < |s| && s[i] == d;
      assert back[i] == c;
    } else {
      assert forall i :: 0 <= i < |s| ==> back[i] == s[i];
    }
  }

  /** Prepending characters other than `s` to a string without "square"
      cannot create an occurrence of "square". */
  lemma {:induction false} NoSquareBehindPrefix(u: string, t: string)
    requires 's' !in u
    requires !Contains(t, "square")
    ensures !Contains(u + t, "square")
    decreases |u|
  {
    if |u| > 0 {
      NoSquareBehindPrefix(u[1..], t);
      assert (u + t)[1..] == u[1..] + t;
      assert (u + t)[0] == u[0];
    } else {
      assert u + t == t;
    }
  }

  /** If the rewritten string starts with a word without an `m`, the original
      starts with it too: a rewritten block always starts with the `m` of
      "medium". */
  lemma {:induction false} RewrittenPrefix(x: string, w: string)
    requires 'm' !in w
    requires StartsWith(ReplaceAll(x, "square", "medium"), w)
    ensures StartsWith(x, w)
    decreases |w|
  {
    if |w| > 0 {
      var r := ReplaceAll(x, "square", "medium");
      assert |r| == |x|;
      assert w[0] == r[0];
      if StartsWith(x, "square") {
        assert false;
      } else {
        var t := ReplaceAll(x[1..], "square", "medium");
        assert r == [x[0]] + t;
        assert t[..|w| - 1] == r[1..|w|];
        assert w[1..] == r[1..|w|];
        RewrittenPrefix(x[1..], w[1..]);
        assert x[..|w|] == [x[0]] + x[1..][..|w| - 1];
      }
    }
  }

  /** Replacing every "square" by "medium" leaves no "square" behind. */
  lemma {:induction false} RewriteLeavesNoSquare(s: string)
    ensures !Contains(ReplaceAll(s, "square", "medium"), "square")
    decreases |s|
  {
    var r := ReplaceAll(s, "square", "medium");
    if |s| == 0 {
      assert r == [];
    } else if StartsWith(s, "square") {
      var t := ReplaceAll(s[6..], "square", "medium");
      RewriteLeavesNoSquare(s[6..]);
      assert r == "medium" + t;
      NoSquareBehindPrefix("medium", t);
    } else {
      var t := ReplaceAll(s[1..], "square", "medium");
      RewriteLeavesNoSquare(s[1..]);
      assert r == [s[0]] + t;
      assert r[1..] == t;
      if StartsWith(r, "square") {
        assert t[..5] == r[1..6];
        assert StartsWith(t, "quare");
        RewrittenPrefix(s[1..], "quare");
        assert false;
      }
    }
  }

  /** The characters for which Python's `str.isspace` holds, which are the
      ones `str.strip()` removes. */
  predicate IsSpace(c: char) {
    var n := c as int;
    n == 0x20 || 0x09 <= n <= 0x0D || 0x1C <= n <= 0x1F || n == 0x85 || n == 0xA0
    || n == 0x1680 || 0x2000 <= n <= 0x200A || n == 0x2028 || n == 0x2029
    || n == 0x202F || n == 0x205F || n == 0x3000
  }

  predicate AllSpace(s: string) {
    forall i :: 0 <= i < |s| ==> IsSpace(s[i])
  }

  /** Neither end of `s` is whitespace. */
  predicate Unpadded(s: string) {
    |s| == 0 || (!IsSpace(s[0]) && !IsSpace(s[|s| - 1]))
  }

  /** `s.lstrip()`. */
  function TrimStart(s: string): (r: string)
    ensures |r| <= |s| && r == s[|s| - |r|..]
    ensures AllSpace(s[..|s| - |r|])
    ensures |r| > 0 ==> !IsSpace(r[0])
    decreases |s|
  {
    if |s| > 0 && IsSpace(s[0]) then TrimStart(s[1..]) else s
  }

  lemma AllSpaceSnoc(s: string, c: char)
    requires AllSpace(s) && IsSpace(c)
    ensures AllSpace(s + [c])
  {
    assert forall i :: 0 <= i < |s| ==> (s + [c])[i] == s[i];
  }

  /** `s.rstrip()`. */
  function TrimEnd(s: string): (r: string)
    ensures |r| <= |s| && r == s[..|r|]
    ensures AllSpace(s[|r|..])
    ensures |r| > 0 ==> !IsSpace(r[|r| - 1])
    decreases |s|
  {
    if |s| > 0 && IsSpace(s[|s| - 1]) then
      var init := s[..|s| - 1];
      var r := TrimEnd(init);
      assert s[|r|..] == init[|r|..] + [s[|s| - 1]];
      AllSpaceSnoc(init[|r|..], s[|s| - 1]);
      r
    else s
  }

  /** `s.strip()`. */
  function Strip(s: string): (r: string)
    ensures |r| <= |s|
    ensures Unpadded(r)
  {
    var t := TrimStart(s);
    var r := TrimEnd(t);
    assert |r| > 0 ==> r[0] == t[0];
    r
  }

  lemma {:induction false} TrimStartPadded(pre: string, rest: string)
    requires AllSpace(pre)
    requires |rest| == 0 || !IsSpace(rest[0])
    ensures TrimStart(pre + rest) == rest
    decreases |pre|
  {
    if |pre| > 0 {
      assert (pre + rest)[1..] == pre[1..] + rest;
      TrimStartPadded(pre[1..], rest);
    } else {
      assert pre + rest == rest;
    }
  }

  lemma {:induction false} TrimEndPadded(rest: string, post: string)
    requires AllSpace(post)
    requires |rest| == 0 || !IsSpace(rest[|rest| - 1])
    ensures TrimEnd(rest + post) == rest
    decreases |post|
  {
    if |post| > 0 {
      assert (rest + post)[..|rest + post| - 1] == rest + post[..|post| - 1];
      TrimEndPadded(rest, post[..|post| - 1]);
    } else {
      assert rest + post == rest;
    }
  }

  /** `strip()` removes exactly the surrounding whitespace. */
  lemma StripPadded(pre: string, core: string, post: string)
    requires AllSpace(pre) && AllSpace(post) && Unpadded(core)
    ensures Strip(pre + core + post) == core
  {
    if |core| == 0 {
      assert pre + core + post == pre + post;
      TrimStartPadded(pre + post, []);
      assert pre + post + [] == pre + post;
      assert TrimStart(pre + post) == [];
    } else {
      assert pre + core + post == pre + (core + post);
      TrimStartPadded(pre, core + post);
      TrimEndPadded(core, post);
    }
  }

  /** Python's `c.lower()` on ASCII letters; every other character is kept. */
  function LowerChar(c: char): char {
    if 'A' <= c <= 'Z' then (c as int + 32) as char else c
  }

  /** `s.lower()` (ASCII letters only). */
  function Lower(s: string): string {
    seq(|s|, i requires 0 <= i < |s| => LowerChar(s[i]))
  }

  /** Lowering a lowered text changes nothing. */
  lemma LowerIdempotent(s: string)
    ensures Lower(Lower(s)) == Lower(s)
  {
    assert forall i :: 0 <= i < |s| ==> LowerChar(LowerChar(s[i])) == LowerChar(s[i]);
  }

  /** A text without upper-case ASCII letters is its own lower case. */
  lemma LowerKeepsLowerCase(s: string)
    requires forall i :: 0 <= i < |s| ==> !('A' <= s[i] <= 'Z')
    ensures Lower(s) == s
  {
  }

  /** `os.path.join(a, b)` on POSIX: an absolute `b` replaces `a`; otherwise
      a `/` is inserted unless `a` is empty or already ends in one. */
  function JoinPath(a: string, b: string): string {
    if StartsWith(b, "/") then b
    else if a == [] || EndsWith(a, "/") then a + b
    else a + "/" + b
  }

  /** A joined path ends with its last component and, unless that component
      is absolute, starts with the first. */
  lemma JoinPathShape(a: string, b: string)
    ensures EndsWith(JoinPath(a, b), b)
    ensures !StartsWith(b, "/") ==> StartsWith(JoinPath(a, b), a)
    ensures |JoinPath(a, b)| <= |a| + 1 + |b|
  {
    var r := JoinPath(a, b);
    assert r[|r| - |b|..] == b;
    if !StartsWith(b, "/") {
      assert r[..|a|] == a;
    }
  }
}

=== FILE: tree.dfy ===
/** The on-disk layout all four scripts share: a data directory whose
    sub-directories are species folders, each holding `<id>.jpg` images and
    `<id>_metadata.json` records. A directory listing is a sequence in
    `os.listdir` order, and a metadata file is represented by what
    `json.load` makes of it. */
module DataTree {
  import opened Wrappers
  import opened Strings

  /** The `coordinates` object of a metadata record. `hasCoordinates` is the
      truthiness of `has_coordinates` (false when the key is missing). */
  datatype Coordinates = Coordinates(hasCoordinates: bool, latitude: Option<real>, longitude: Option<real>)

  /** The fields of a metadata record the scripts read: `coordinates`,
      `observation_id`, `image_metadata.image_url` and
      `taxonomy.common_name`; a missing key or parent object is `None`. */
  datatype Metadata = Metadata(
    coordinates: Option<Coordinates>,
    observationId: Option<int>,
    imageUrl: Option<string>,
    commonName: Option<string>)

  /** What `json.load` makes of a file: a record, or a `JSONDecodeError`. */
  datatype Content = Malformed | Parsed(meta: Metadata)

  /** One entry of a species folder. */
  datatype FileEntry = FileEntry(name: string, content: Content)

  /** One entry of the data directory: a species folder, or anything that is
      not a directory (skipped by every script). */
  datatype TopEntry = Folder(name: string, files: seq<FileEntry>) | NotADirectory(name: string)

  type DataDir = seq<TopEntry>

  const ImageSuffix: string := ".jpg"
  const MetadataSuffix: string := "_metadata.json"
  const UnknownSpecies: string := "unknown_species"

  predicate IsImageName(name: string) {
    EndsWith(name, ImageSuffix)
  }

  predicate IsMetadataName(name: string) {
    EndsWith(name, MetadataSuffix)
  }

  /** `data.get('coordinates', {}).get('has_coordinates')` is truthy. */
  predicate FlagsCoordinates(m: Metadata) {
    m.coordinates.Some? && m.coordinates.value.hasCoordinates
  }

  /** The folder a taxon's images go to: its name with every space replaced
      by `_`, or `unknown_species` when the taxon has no name. */
  function SpeciesFolder(taxonName: Option<string>): string {
    ReplaceAll(taxonName.GetOr(UnknownSpecies), " ", "_")
  }

  /** The name a folder is shown and charted under: every `_` replaced by a space. */
  function DisplayName(folder: string): string {
    ReplaceAll(folder, "_", " ")
  }

  /** A species folder name never contains a space. */
  lemma SpeciesFolderHasNoSpace(taxonName: Option<string>)
    ensures ' ' !in SpeciesFolder(taxonName)
  {
    ReplaceOneCharRemovesIt(taxonName.GetOr(UnknownSpecies), ' ', '_');
  }

  /** Showing a species folder gives back the taxon name exactly when the
      name held no `_`; a name with one comes back with a space in its place. */
  lemma DisplayNameInvertsFolder(name: string)
    ensures DisplayName(SpeciesFolder(Some(name))) == name <==> '_' !in name
  {
    ReplaceOneCharRoundTrip(name, ' ', '_');
  }

  /** A name without spaces is used as its own folder name. */
  lemma SpeciesFolderKeepsSpacelessName(name: string)
    requires ' ' !in name
    ensures SpeciesFolder(Some(name)) == name
  {
    ReplaceOneChar(name, ' ', '_');
  }

  /** Observations without a taxon name end up in `unknown_species`. */
  lemma UnknownSpeciesFolder()
    ensures SpeciesFolder(None) == UnknownSpecies
  {
    assert forall i :: 0 <= i < |UnknownSpecies| ==> UnknownSpecies[i] != ' ';
    SpeciesFolderKeepsSpacelessName(UnknownSpecies);
  }
}

=== FILE: wrappers.dfy ===
/** Optional values and error-carrying results, used wherever the scripts
    read a key that may be missing or call something that may raise. */
module Wrappers {

  /** A value that may be absent (Python's `None`). */
  datatype Option<+T> = None | Some(value: T) {

    /** The value, or `default` when it is absent (`dict.get(key, default)`). */
    function GetOr(default: T): T {
      match this
      case Some(v) => v
      case None => default
    }
  }

  /** A computation that either produces a value or raises an exception. */
  datatype Result<+T, +E> = Ok(value: T) | Err(error: E)
}
